=== FILE: README.md ===
# A* search on a walkability grid — Dafny model

This project models a small C++ A* path finder.

- **Nodes.** An `AStarNode` holds a grid coordinate, the three scores G, H and F, and a parent link.
- **Path.** An `AStarPath` is a deque of node copies. It supports front and back insertion and traversal by coordinates.
- **Search object.** An `AStarSearch` is initialised with a grid size, a start, a goal and a walkability mask.
  - It scores every cell: H is the distance to the goal, G is the constant 10000, and F is G + H on a walkable cell and 10000 on a blocked one.
  - `calculatePath` runs an open/closed list search over four-connected walkable neighbours, then walks the parent links back from the goal.

## Modules

| module | file | models |
|---|---|---|
| `Wrappers` | `wrappers.dfy` | `Option` |
| `AStarNode` | `node.dfy` | the node record, its constructors, setters and getters |
| `AStarPath` | `path.dfy` | the path deque and traversal by `getNextNode` |
| `Grid` | `grid.dfy` | the search object's fields; `init`, `reset`, `setStart`, `setEnd`; scoring; neighbour enumeration; walks and reachability |
| `Search` | `search.dfy` | `calculatePath`: selection, erase, expansion, the loop invariant, the backtrace |
| `Driver` | `driver.dfy` | the driver program's 7×6 grid |
| `Endpoints` | `endpoints.dfy` | the finding below: the setters accept start = goal |

## How the C++ maps onto the model

- **Cell-keyed arena.** Pointers into the node grid become cell coordinates. The arena is a `map<Pos, Node>`, a parent link is an `Option<Pos>`, and null is `None`.
  - `AStarPath::getNextNode` takes a pointer that may or may not point into the path. It becomes a `NodeRef`: either `Stored(index)` or `Detached(node)`.
- **Thrown strings.** The two strings `calculatePath` throws become the `NotInitialized` and `NoPath` outcomes.
- **The heuristic** is a parameter `(Pos, Pos) -> real`. Scores are reals.
- **Cross-search state.** The model keeps every parent link across searches, as the source does: the scoring pass never clears parents.
  - `Search.CalculatePath` is proved for any arena that differs from the scored one only in parent links. This covers a second search after `setStart` or `setEnd`.
- **Tie-break.** The selection scan compares with `<=`, so among open cells of equal F the last one in the open list wins. The comment above the scan (AStarSearch.h:302) calls it the lastly added node.
- **Relaxation never fires.** Every G is 10000 while a search runs, so "G through the current cell + 1 < neighbour's G" never holds. The relaxation branch is modelled but never changes anything (`Search.ExpandKeepsScores`).
  - The search is therefore best-first on H. No claim of a shortest path is made or provable.
- **Start cell's mask.** `init` never checks the start cell's mask entry when it validates its arguments (AStarSearch.h:111-113), and `calculatePath` puts the start on the open list without consulting it (AStarSearch.h:296). A blocked start is accepted and searched from like any other cell (`Driver.InitIgnoresStartMask`); the scoring still reads its mask entry and gives it F = 10000. The model's walks exempt their first cell from the walkability condition for this reason.

## Model

| member | source | states |
|---|---|---|
| AStarNode.DefaultNode | AStarNode.h:35-39 | a default node is unlinked at (0, 0) with all three scores zero |
| AStarNode.NodeAt | AStarNode.h:41-44 | a node built for (x, y) is unlinked, sits at (x, y), and has all three scores zero |
| AStarNode.NodeAtIsMovedDefault | AStarNode.h:35-44 | the coordinate constructor equals the default node with x and y set, and the default node is the one at (0, 0) |
| AStarNode.SetG | AStarNode.h:46 | setting G stores it and keeps the parent, H, F and coordinates |
| AStarNode.SetF | AStarNode.h:47 | setting F stores it and keeps the parent, G, H and coordinates |
| AStarNode.SetH | AStarNode.h:48 | setting H stores it and keeps the parent, G, F and coordinates |
| AStarNode.SetX | AStarNode.h:49 | setting x stores it and keeps every other field |
| AStarNode.SetY | AStarNode.h:50 | setting y stores it and keeps every other field |
| AStarNode.SetParent | AStarNode.h:51 | setting the parent stores it and keeps the scores and coordinates |
| AStarNode.GetAfterSet | AStarNode.h:46-58 | each getter returns what the matching setter stored |
| AStarPath.EmptyPath | AStarPath.h:12 | a new path has length zero |
| AStarPath.AddNodeAtFront | AStarPath.h:24-27 | the length grows by one, the new node comes first, and the old nodes follow in order |
| AStarPath.AddNodeAtEnd | AStarPath.h:29-32 | the length grows by one, the old nodes keep their places, and the new node comes last |
| AStarPath.GetFirstNode | AStarPath.h:36 | on a non-empty path the first node designates the whole path from its front |
| AStarPath.FirstMatch | AStarPath.h:45-53 | the scan finds the earliest stored node with the given coordinates, or reports that none has them |
| AStarPath.GetNextNode | AStarPath.h:38-55 | null on the stored last node; otherwise the node after the first stored node with the argument's coordinates, or null when no stored node has them |
| AStarPath.NextIsSuccessor | AStarPath.h:38-55 | when coordinates do not repeat, the next node of element i is element i + 1, and null on the last element |
| AStarPath.VisitFrom | AStarPath.h:38-55 | when coordinates do not repeat, following next-node links from element i visits the rest of the path in order |
| AStarPath.GetLength | AStarPath.h:34 | the length is never negative and is zero exactly for a path holding no node |
| AStarPath.Visit | main.cpp:29-35 | the traversal yields at most its step budget of nodes, each one of the path's, starting with the current node, and nothing from null |
| AStarPath.TraversalVisitsAll | main.cpp:26-35 | the driver's traversal (first node, then next node up to length times) visits every node of a repeat-free path in order, and ends on null |
| AStarPath.AddsCommute | AStarPath.h:24-36 | front and back insertion commute; the first node after a front insertion is the inserted node; the last node after a back insertion is the inserted node |
| AStarPath.RepeatedCoordsLoopBack | AStarPath.h:45-53 | when two nodes share coordinates, traversal from the later one jumps back after the earlier one instead of moving on |
| Grid.Cells | AStarSearch.h:86-96 | the cell set of a width-by-height grid holds exactly the in-range coordinates |
| Grid.NewSearch | AStarSearch.h:53-64 | a new search object has no cells and no endpoints, is uninitialised, and satisfies the object invariant |
| Grid.CreateNodes | AStarSearch.h:86-96 | the arena has a node at exactly the grid's cells, each a fresh unlinked node at its own coordinates |
| Grid.CalculateHScores | AStarSearch.h:248-257 | every node's H is the heuristic from its own cell to the goal; all else is unchanged |
| Grid.CalculateGScores | AStarSearch.h:209-230 | every node's G becomes 10000; all else is unchanged |
| Grid.CalculateFScores | AStarSearch.h:232-246 | F is G + H on walkable cells and 10000 on blocked ones; all else is unchanged |
| Grid.CalculateScores | AStarSearch.h:174-179 | after rescoring, G is 10000 everywhere, H is the distance to the goal, F follows the mask, and parents and positions are kept |
| Grid.ScoredIsValid | AStarSearch.h:133-136 | scoring a configured grid and marking it initialised establishes the object invariant |
| Grid.Configure | AStarSearch.h:115-130 | the configured object has the requested width, height, mask and endpoints, keeps its initialised flag, and holds a fresh unlinked node at its own cell on every cell of the grid and nowhere else |
| Grid.ConfiguredScores | AStarSearch.h:115-136 | a freshly configured and scored grid is valid, covers the grid, and every node is unlinked at its cell with the initial scores |
| Grid.Init | AStarSearch.h:108-139 | init succeeds exactly when both endpoints are in range and differ. On failure nothing changes. On success the object is valid, initialised and sized to the request, with the given endpoints and mask and freshly scored unlinked nodes on every cell |
| Grid.Reset | AStarSearch.h:141-151 | after reset the object is valid, uninitialised and empty with no endpoints; the mask is kept |
| Grid.SetStart | AStarSearch.h:153-161 | an out-of-range cell, or an uninitialised object, leaves everything unchanged. Otherwise the start moves, only the start and the nodes change, H is recomputed against the goal, parents are kept, and the invariant holds |
| Grid.SetEnd | AStarSearch.h:163-172 | an out-of-range cell, or an uninitialised object, leaves everything unchanged. Otherwise the goal moves, H is recomputed against the new goal, parents are kept, and the invariant holds |
| Grid.WalkableAdjacent | AStarSearch.h:264-280 | at most four cells are listed, each in range, walkable and a four-neighbour of the given cell |
| Grid.WalkableAdjacentExact | AStarSearch.h:264-280 | the neighbour list holds exactly the in-range walkable four-neighbours, in left, right, up, down order, without repeats |
| Search.ListContains | AStarSearch.h:98-106 | the scan answers true exactly when the cell is in the list |
| Search.FirstIndexOf | AStarSearch.h:311 | `std::find` stops at the earliest occurrence |
| Search.EraseFirst | AStarSearch.h:311 | erasing removes exactly the earliest occurrence and keeps the other entries in order |
| Search.EraseDistinct | AStarSearch.h:311 | erasing from a repeat-free list removes that entry and nothing else, leaving a repeat-free list |
| Search.ScanLowest | AStarSearch.h:304-308 | the scan returns an entry with minimal F, and no later entry has the same F |
| Search.SelectLowest | AStarSearch.h:302-308 | the selected open entry has minimal F and is the last such entry |
| Search.VisitNeighbour | AStarSearch.h:327-349 | a closed neighbour is skipped and unchanged. One neither closed nor open is appended and only its parent is set to the current cell. An open one gets G = current G + 1 and the current cell as parent exactly when that is lower than its G, and is unchanged otherwise. No other node changes |
| Search.Expand | AStarSearch.h:325-350 | the inner loop changes only G and parent links, only appends to the open list, and afterwards a cell is open exactly when it was open before or is an unclosed neighbour |
| Search.ExpandChanges | AStarSearch.h:333-349 | every node the inner loop changes is an unclosed neighbour now linked to the current cell |
| Search.ExpandAppends | AStarSearch.h:334-340 | every cell the inner loop appends is an unclosed neighbour that was not yet open, linked to the current cell |
| Search.ExpandKeepsDistinct | AStarSearch.h:334-340 | the open list never gains a repeated cell |
| Search.ExpandRelaxes | AStarSearch.h:333-349 | over a repeat-free neighbour list, every unclosed neighbour ends as the single visit prescribes: appended ones only gain the parent link, open ones are relaxed exactly when current G + 1 is lower, and otherwise unchanged |
| Search.ExpandKeepsScores | AStarSearch.h:341-348 | while every G is 10000 the relaxation never fires: only parent links change |
| Search.ExpandCurrent | AStarSearch.h:323-350 | expanding the current cell keeps the arena's cells and only appends grid cells to the open list |
| Search.Step | AStarSearch.h:300-351 | one pass moves the selected cell from the open to the closed list, keeping the others in order. It reports success exactly when the goal is then closed. It otherwise only appends to the open list |
| Search.StepKeepsInv | AStarSearch.h:300-352 | one pass keeps the loop invariant and closes one more cell. The invariant: repeat-free disjoint lists; the start closed first; every closed cell but the start linked to an adjacent earlier closed cell; every open cell linked to a closed one; every closed cell's walkable neighbours open or closed; scores untouched |
| Search.ExhaustedMeansUnreachable | AStarSearch.h:352-358 | if the open list runs dry before the goal is closed, no walk leads from the start to the goal |
| Search.CellsCount | AStarSearch.h:86-96 | a width-by-height grid has width × height cells |
| Search.Backtrace | AStarSearch.h:360-373 | walking parent links back from the goal yields a path from the start to the goal: consecutive cells adjacent, every cell closed, no cell twice, every node a copy of the arena's node, and every node after the first naming the one before it as parent, so the path is the goal's parent chain read backwards |
| Search.OpenClosedLoop | AStarSearch.h:288-352 | the main loop ends with the goal closed or the open list empty, keeps its invariant, and runs at most width × height passes |
| Search.CalculatePath | AStarSearch.h:282-374 | uninitialised: fails with "not initialized" and changes nothing. Otherwise it fails with "no path" exactly when the goal is unreachable, and else returns a repeat-free walk from the start to the goal over cells that are walkable after the start, made of arena snapshots, each node after the first naming the one before it as parent. Only parent links change |
| Driver.DriverGridHasPath | main.cpp:7-19 | the driver's init call succeeds and its goal is reachable from its start, so the search returns a path rather than throwing |
| Driver.InitIgnoresStartMask | AStarSearch.h:108-139 | init accepts a blocked start cell, whose scoring still reads the mask and gives it F = 10000, and rejects an out-of-range goal and a goal equal to the start |
| Endpoints.BacktraceAsWritten | AStarSearch.h:360-373 | the backtrace as the code has it, start = goal allowed: the result begins with the start node and ends with the nodes walked so far |
| Endpoints.ClashRepeatsCell | AStarSearch.h:300-373 | with start = goal and no links, the first pass closes the goal and the backtrace returns that cell twice |
| Endpoints.Pair | AStarSearch.h:108-139 | a 2×1 all-walkable init from (0, 0) to (1, 0) succeeds and leaves every node unlinked |
| Endpoints.SetEndOntoStart | AStarSearch.h:163-172 | setEnd onto the start cell is accepted, and the following search returns the start cell twice |
| Endpoints.SetStartOntoGoal | AStarSearch.h:153-161 | setStart onto the goal cell is accepted, and the following search returns the goal cell twice |
| Endpoints.SetStartChecked | AStarSearch.h:153-161 | the corrected setStart keeps the object valid with distinct endpoints, refusing the goal cell |
| Endpoints.SetEndChecked | AStarSearch.h:163-172 | the corrected setEnd keeps the object valid with distinct endpoints, refusing the start cell |
| Endpoints.ApartIsKept | AStarSearch.h:108-151 | init and reset also leave the endpoints of an initialised object distinct |

## Findings

| source | as written | input that shows it | evidently intended | confidence | as-written member | corrected member |
|---|---|---|---|---|---|---|
| AStarSearch.h:153-172 | `setStart` and `setEnd` check only the range, so either can move one endpoint onto the other | `init(2, 1, 0, 0, 1, 0, {{true, true}})`, then `setEnd(0, 0)` (or `setStart(1, 0)`), then `calculatePath()` returns a path with the one cell twice | refuse the other endpoint's cell, as `init` does at line 112 | medium, not executed | Endpoints.SetEndOntoStart | Endpoints.SetEndChecked |

- `Endpoints.SetStartOntoGoal` and `Endpoints.SetStartChecked` are the same two halves for `setStart`.
- `Search.CalculatePath` takes distinct endpoints as its precondition. `Endpoints.Apart` is the invariant that the corrected setters, `init` and `reset` maintain.

## Left out

- **Floating point.** Scores are reals, not `float`. `getHeuristicDistance` (AStarSearch.h:259-262, `sqrt` of `pow`) is the abstract `heuristic` parameter. Rounding is not modelled.
- **Dead code.**
  - `calculateGScore`, the recursive flood fill at AStarSearch.h:181-207, is never called, so it is not modelled.
  - The local "visited" table in `calculateGScores` is written and never read.
  - `AStarPath::reverse` is declared but never defined.
- **Vector sizing.** `setNodeListSize` and `resetWalkable` are subsumed by the arena map.
  - `reset` empties the arena, so the vector shrink is what the model shows.
  - The inner-row `resize` has no counterpart.
- **Impossible null check.** The check at AStarSearch.h:126-128 can never fire: addresses of vector elements are never null. It is not modelled.
- **Driver I/O.** main.cpp's printing, its `catch`, and `std::cin.get()` are I/O. The traversal itself is `AStarPath.Visit` and `AStarPath.TraversalVisitsAll`.
  - If `calculatePath` threw, main.cpp would call `getFirstNode` on an empty path. That case is excluded by `AStarPath.GetFirstNode`'s precondition.
- **Integer width.** Coordinates and sizes are unbounded integers. Overflow of `int` in the range checks or in width × height is not modelled.
- Grid.Init: requires the mask to cover the grid (at least `height` rows of at least `width` entries) whenever init accepts, because the source indexes the mask without checking its size. A shorter mask is undefined behaviour in the source; a larger one is accepted and its extra entries are never read.
- Search.Expand: its own contract does not say when the relaxation fires. `Search.ExpandRelaxes` states it for neighbour lists without repeats, which is what `getWalkableAdjacentNodes` returns (`Grid.WalkableAdjacentExact`).
- AStarPath.GetFirstNode: requires a non-empty path, because `front()` of an empty deque is undefined behaviour.
- AStarPath.GetNextNode: requires `NextDefined`. The source is undefined on an empty path, and when a detached node's coordinates first match the last element it dereferences one past the end.
- Search.CalculatePath: requires the start and the goal of an initialised object to differ. The source's `setStart` and `setEnd` allow them to coincide (see Findings). The search then closes the goal at once, and the backtrace follows whatever parent link the cell kept from an earlier search. That walk is not bounded by anything the model can state, so the case is excluded, and `Endpoints.ClashRepeatsCell` states what happens when the cell has no link.
- Search.CalculatePath: makes no shortest-path claim. G stays 10000 on every cell and is never updated, so F orders cells by H alone, and the source gives no optimality guarantee to state.
- Search.Step: F is not recomputed when the relaxation lowers G. Since the relaxation never fires (`Search.ExpandKeepsScores`), this has no effect.

=== FILE: driver.dfy ===
/** The driver program (main.cpp): a 7-by-6 grid searched from the top-left
    to the top-right corner, and two consequences of the model for it. */
module Driver {
  import opened Wrappers
  import opened AStarNode
  import opened Grid

  /** The driver's mask, row by row (row 0 on top). */
  const Mask: seq<seq<bool>> := [
    [true, false, true, true, true, false, true],
    [true, false, true, false, true, false, true],
    [true, true, true, false, true, true, true],
    [false, true, true, false, true, true, true],
    [true, false, true, false, true, true, true],
    [true, true, true, true, true, true, true]
  ]

  /** A walk around the two walls, from (0, 0) to (6, 0). */
  const Route: seq<Pos> := [
    Pos(0, 0), Pos(0, 1), Pos(0, 2), Pos(1, 2), Pos(2, 2), Pos(2, 3), Pos(2, 4), Pos(2, 5),
    Pos(3, 5), Pos(4, 5), Pos(4, 4), Pos(4, 3), Pos(4, 2), Pos(5, 2), Pos(6, 2), Pos(6, 1), Pos(6, 0)
  ]

  /** The driver's `init` call succeeds, and in the grid it builds the goal
      is reachable from the start, so `calculatePath` returns a path rather
      than failing. */
  lemma DriverGridHasPath(heuristic: Heuristic)
    ensures var r := Init(NewSearch(), 7, 6, 0, 0, 6, 0, Mask, heuristic);
      && r.0 && r.1.wasInit && r.1.start != r.1.goal
      && Reachable(r.1, r.1.start.value, r.1.goal.value)
  {
    var r := Init(NewSearch(), 7, 6, 0, 0, 6, 0, Mask, heuristic);
    assert MaskShaped(Mask, 7, 6);
    assert r.0;
    RouteIsWalk(r.1);
  }

  /** `Route` steps between adjacent cells, all walkable in the driver's
      mask. */
  lemma RouteIsWalk(s: State)
    requires s.width == 7 && s.height == 6 && s.walkable == Mask
    ensures MaskShaped(s.walkable, s.width, s.height) && IsWalk(s, Route)
  {
    assert MaskShaped(Mask, 7, 6);
    forall i | 0 < i < |Route| ensures InBounds(s, Route[i]) && Walkable(s, Route[i])
    {
    }
    forall i | 0 <= i < |Route| - 1 ensures Adjacent(Route[i], Route[i + 1])
    {
    }
  }

  /** `init` never checks the start cell's mask entry: a blocked start
      is accepted, while an out-of-range or coinciding goal is not. The
      scoring does read the entry and gives the blocked start F = 10000. */
  lemma InitIgnoresStartMask(heuristic: Heuristic)
    ensures Init(NewSearch(), 2, 1, 0, 0, 1, 0, [[false, true]], heuristic).0
    ensures !Init(NewSearch(), 2, 1, 0, 0, 2, 0, [[false, true]], heuristic).0
    ensures !Init(NewSearch(), 2, 1, 0, 0, 0, 0, [[false, true]], heuristic).0
    ensures var r := Init(NewSearch(), 2, 1, 0, 0, 1, 0, [[false, true]], heuristic).1;
      Pos(0, 0) in r.nodes && r.nodes[Pos(0, 0)].f == Sentinel
  {
    assert MaskShaped([[false, true]], 2, 1);
    assert Pos(0, 0) in Cells(2, 1);
  }
}

=== FILE: endpoints.dfy ===
/** `setStart` and `setEnd` accept the other endpoint's cell, which `init`
    refuses. The search then closes the goal on its first pass and the walk
    back along parent links puts the one cell into the path twice. This
    module states that behaviour as the code has it, and the corrected
    setters that keep the two endpoints apart. */
module Endpoints {
  import opened Wrappers
  import opened AStarNode
  import opened AStarPath
  import opened Grid
  import opened Search

  /** `calculatePath`'s second loop as the code has it, without assuming
      that the start and the goal differ: the node at `cur` goes to the
      front, the walk stops at a node without a parent or when the parent is
      the start, and the start node then goes to the front. `fuel` bounds
      the passes; None means it ran out. */
  function BacktraceAsWritten(nodes: map<Pos, Node>, start: Pos, cur: Pos, p: Path, fuel: nat): (r: Option<Path>)
    requires start in nodes && cur in nodes
    requires forall q :: q in nodes && nodes[q].parent.Some? ==> nodes[q].parent.value in nodes
    ensures r.Some? ==> |r.value.nodes| >= |p.nodes| + 2
    ensures r.Some? ==> r.value.nodes[0] == nodes[start]
    ensures r.Some? ==> r.value.nodes[|r.value.nodes| - |p.nodes| - 1..] == [nodes[cur]] + p.nodes
    decreases fuel
  {
    var front := AddNodeAtFront(p, nodes[cur]);
    match nodes[cur].parent
    case None => Some(AddNodeAtFront(front, nodes[start]))
    case Some(q) =>
      if q == start then Some(AddNodeAtFront(front, nodes[start]))
      else if fuel == 0 then None
      else BacktraceAsWritten(nodes, start, q, front, fuel - 1)
  }

  /** With the start equal to the goal and no link on it, the first pass
      closes the goal and the walk back yields that one node twice: a path
      that repeats a cell. */
  lemma ClashRepeatsCell(s: State)
    requires Valid(s) && s.wasInit && s.start == s.goal
    requires forall q :: q in s.nodes ==> s.nodes[q].parent.None?
    ensures var fr := Frontier([s.start.value], [], s.nodes);
      StepReady(s, fr) && Step(s, fr).0
    ensures var n := s.nodes[s.goal.value];
      BacktraceAsWritten(s.nodes, s.start.value, s.goal.value, EmptyPath(), 0) == Some(Path([n, n]))
    ensures !DistinctCoords(Path([s.nodes[s.goal.value], s.nodes[s.goal.value]]))
  {
    var fr := Frontier([s.start.value], [], s.nodes);
    assert StepReady(s, fr);
    assert Current(fr) == s.goal.value;
    var n := s.nodes[s.goal.value];
    assert AddNodeAtFront(AddNodeAtFront(EmptyPath(), n), n).nodes == [n, n];
  }

  /** The driver's kind of grid: two walkable cells side by side, searched
      from the left cell to the right one. */
  function Pair(heuristic: Heuristic): (s: State)
    ensures Valid(s) && s.wasInit && s.start == Some(Pos(0, 0)) && s.goal == Some(Pos(1, 0))
    ensures forall q :: q in s.nodes ==> s.nodes[q].parent.None?
  {
    assert MaskShaped([[true, true]], 2, 1);
    Init(NewSearch(), 2, 1, 0, 0, 1, 0, [[true, true]], heuristic).1
  }

  /** `setEnd` onto the start cell is accepted, and the search that follows
      returns the start cell twice. */
  lemma SetEndOntoStart(heuristic: Heuristic)
    ensures var e := SetEnd(Pair(heuristic), 0, 0, heuristic);
      && e.wasInit && e.start == e.goal == Some(Pos(0, 0))
      && BacktraceAsWritten(e.nodes, e.start.value, e.goal.value, EmptyPath(), 0)
         == Some(Path([e.nodes[Pos(0, 0)], e.nodes[Pos(0, 0)]]))
  {
    var e := SetEnd(Pair(heuristic), 0, 0, heuristic);
    ClashRepeatsCell(e);
  }

  /** `setStart` onto the goal cell is accepted, and the search that
      follows returns the goal cell twice. */
  lemma SetStartOntoGoal(heuristic: Heuristic)
    ensures var e := SetStart(Pair(heuristic), 1, 0, heuristic);
      && e.wasInit && e.start == e.goal == Some(Pos(1, 0))
      && BacktraceAsWritten(e.nodes, e.start.value, e.goal.value, EmptyPath(), 0)
         == Some(Path([e.nodes[Pos(1, 0)], e.nodes[Pos(1, 0)]]))
  {
    var e := SetStart(Pair(heuristic), 1, 0, heuristic);
    ClashRepeatsCell(e);
  }

  /** The endpoints of an initialised search differ: what `init` checks and
      what `calculatePath` needs. */
  predicate Apart(s: State)
  {
    s.wasInit ==> s.start != s.goal
  }

  /** `setStart` that also refuses the goal cell, as `init` does. */
  function SetStartChecked(s: State, x: int, y: int, heuristic: Heuristic): (r: State)
    requires Valid(s) && Apart(s)
    ensures Valid(r) && Apart(r)
    ensures s.goal == Some(Pos(x, y)) ==> r == s
    ensures s.goal != Some(Pos(x, y)) ==> r == SetStart(s, x, y, heuristic)
  {
    if s.goal == Some(Pos(x, y)) then s else SetStart(s, x, y, heuristic)
  }

  /** `setEnd` that also refuses the start cell, as `init` does. */
  function SetEndChecked(s: State, x: int, y: int, heuristic: Heuristic): (r: State)
    requires Valid(s) && Apart(s)
    ensures Valid(r) && Apart(r)
    ensures s.start == Some(Pos(x, y)) ==> r == s
    ensures s.start != Some(Pos(x, y)) ==> r == SetEnd(s, x, y, heuristic)
  {
    if s.start == Some(Pos(x, y)) then s else SetEnd(s, x, y, heuristic)
  }

  /** With the checked setters every operation keeps the endpoints apart,
      so `calculatePath` can always be called. */
  lemma ApartIsKept(s: State, width: int, height: int, startX: int, startY: int, endX: int, endY: int,
                    walkable: seq<seq<bool>>, heuristic: Heuristic)
    requires Valid(s) && Apart(s)
    requires InitAccepts(width, height, startX, startY, endX, endY) ==> MaskShaped(walkable, width, height)
    ensures Apart(Init(s, width, height, startX, startY, endX, endY, walkable, heuristic).1)
    ensures Apart(Reset(s))
  {
  }
}

=== FILE: grid.dfy ===
/** The grid half of the search object (AStarSearch.h): dimensions, the node
    arena, the walkability mask, the start and goal cells, and the
    operations that configure them and recompute the scores. */
module Grid {
  import opened Wrappers
  import opened AStarNode

  /** The cost every G is set to, and the F of every blocked cell. */
  const Sentinel: real := 10000.0

  /** The heuristic estimate from a cell to the goal. The source computes the
      Euclidean distance in floating point; the model takes it as given. */
  type Heuristic = (Pos, Pos) -> real

  /** The fields of the search object. Nodes live in an arena keyed by
      their cell; `start` and `goal` name cells where the source holds
      pointers into the arena, None where it holds null. */
  datatype State = State(
    width: int,
    height: int,
    nodes: map<Pos, Node>,
    walkable: seq<seq<bool>>,
    start: Option<Pos>,
    goal: Option<Pos>,
    wasInit: bool)

  /** Every cell of a width-by-height grid. */
  function Cells(width: int, height: int): (r: set<Pos>)
    ensures forall q :: q in r <==> 0 <= q.x < width && 0 <= q.y < height
  {
    set x: int, y: int | 0 <= x < width && 0 <= y < height :: Pos(x, y)
  }

  predicate InBounds(s: State, p: Pos)
  {
    0 <= p.x < s.width && 0 <= p.y < s.height
  }

  /** The mask covers the grid: at least `height` rows, each with at least
      `width` entries. The source reads it as mask[y][x] only inside the
      grid and never checks its shape, so extra rows or entries are never
      read. */
  predicate MaskShaped(mask: seq<seq<bool>>, width: int, height: int)
  {
    |mask| >= height && forall row :: 0 <= row < height ==> |mask[row]| >= width
  }

  predicate Walkable(s: State, p: Pos)
    requires MaskShaped(s.walkable, s.width, s.height) && InBounds(s, p)
  {
    s.walkable[p.y][p.x]
  }

  /** Four-connected adjacency: one unit apart along exactly one axis. */
  predicate Adjacent(p: Pos, q: Pos)
  {
    || (p.y == q.y && (p.x == q.x + 1 || q.x == p.x + 1))
    || (p.x == q.x && (p.y == q.y + 1 || q.y == p.y + 1))
  }

  /** The F the scoring pass gives a cell: G + H when walkable, the sentinel
      otherwise. */
  function ScoredF(walkable: bool, n: Node): real
  {
    if walkable then n.g + n.h else Sentinel
  }

  /** The arena holds exactly the grid's cells, each node at its own cell. */
  predicate ArenaShaped(s: State)
  {
    && s.nodes.Keys == Cells(s.width, s.height)
    && forall p :: p in s.nodes ==> PosOf(s.nodes[p]) == p
  }

  /** What the setup operations need before they recompute scores. */
  predicate Configured(s: State)
  {
    && ArenaShaped(s)
    && MaskShaped(s.walkable, s.width, s.height)
    && s.start.Some? && InBounds(s, s.start.value)
    && s.goal.Some? && InBounds(s, s.goal.value)
  }

  /** The object's invariant, established by the constructor and kept by
      every public operation: an uninitialised object is empty; an
      initialised one is configured, every G is the sentinel and every F is
      the score the scoring pass gives. */
  predicate Valid(s: State)
  {
    && s.width >= 0 && s.height >= 0
    && ArenaShaped(s)
    && (forall p :: p in s.nodes ==> s.nodes[p].g == Sentinel)
    && (!s.wasInit ==> s.width == 0 && s.height == 0 && s.start.None? && s.goal.None?)
    && (s.wasInit ==>
          && Configured(s)
          && forall p :: p in s.nodes ==> s.nodes[p].f == ScoredF(s.walkable[p.y][p.x], s.nodes[p]))
  }

  /** The constructor: no cells, no endpoints, not initialised. */
  function NewSearch(): (s: State)
    ensures Valid(s) && !s.wasInit
  {
    State(0, 0, map[], [], None, None, false)
  }

  /** `createNodes`: a fresh node at every cell. */
  function CreateNodes(width: int, height: int): (r: map<Pos, Node>)
    ensures r.Keys == Cells(width, height)
    ensures forall p :: p in r ==> r[p] == NodeAt(p.x, p.y)
  {
    map p | p in Cells(width, height) :: NodeAt(p.x, p.y)
  }

  /** `calculateHScores`: every node's H is the heuristic from the node's
      own coordinates to the goal; nothing else changes. */
  function CalculateHScores(s: State, heuristic: Heuristic): (r: State)
    requires s.goal.Some?
    ensures r.(nodes := s.nodes) == s && r.nodes.Keys == s.nodes.Keys
    ensures forall p :: p in s.nodes ==>
              && r.nodes[p].h == heuristic(PosOf(s.nodes[p]), s.goal.value)
              && r.nodes[p] == s.nodes[p].(h := r.nodes[p].h)
  {
    s.(nodes := map p | p in s.nodes :: SetH(s.nodes[p], heuristic(PosOf(s.nodes[p]), s.goal.value)))
  }

  /** `calculateGScores`: every node's G becomes the sentinel; nothing else
      changes. The source also reads the start cell's coordinates to mark it
      in a local "visited" table that nothing reads. */
  function CalculateGScores(s: State): (r: State)
    requires s.start.Some? && InBounds(s, s.start.value)
    ensures r.(nodes := s.nodes) == s && r.nodes.Keys == s.nodes.Keys
    ensures forall p :: p in s.nodes ==>
              && r.nodes[p].g == Sentinel
              && r.nodes[p] == s.nodes[p].(g := r.nodes[p].g)
  {
    s.(nodes := map p | p in s.nodes :: SetG(s.nodes[p], Sentinel))
  }

  /** `calculateFScores`: a walkable cell's F becomes G + H, a blocked
      cell's the sentinel; nothing else changes. */
  function CalculateFScores(s: State): (r: State)
    requires ArenaShaped(s) && MaskShaped(s.walkable, s.width, s.height)
    ensures r.(nodes := s.nodes) == s && r.nodes.Keys == s.nodes.Keys
    ensures forall p :: p in s.nodes ==>
              && (s.walkable[p.y][p.x] ==> r.nodes[p].f == s.nodes[p].g + s.nodes[p].h)
              && (!s.walkable[p.y][p.x] ==> r.nodes[p].f == Sentinel)
              && r.nodes[p] == s.nodes[p].(f := r.nodes[p].f)
  {
    s.(nodes := map p | p in s.nodes ::
         if s.walkable[p.y][p.x] then SetF(s.nodes[p], s.nodes[p].g + s.nodes[p].h)
         else SetF(s.nodes[p], Sentinel))
  }

  /** Each node of `nodes` carries the scores the scoring pass gives the
      cell in `s`: the sentinel G, H from the goal, F the sentinel plus H on
      a walkable cell and the sentinel on a blocked one; its parent link and
      position are those of `s`'s node. */
  predicate Rescored(s: State, nodes: map<Pos, Node>, heuristic: Heuristic)
    requires Configured(s) && nodes.Keys == s.nodes.Keys
  {
    forall p :: p in s.nodes ==>
      && nodes[p].g == Sentinel
      && nodes[p].h == heuristic(p, s.goal.value)
      && nodes[p].f == (if s.walkable[p.y][p.x] then Sentinel + nodes[p].h else Sentinel)
      && nodes[p].parent == s.nodes[p].parent
      && PosOf(nodes[p]) == p
  }

  /** `calculateScores`: H from the goal, then G, then F. Only the nodes
      change, and each ends up rescored with its parent link kept. */
  function CalculateScores(s: State, heuristic: Heuristic): (r: State)
    requires Configured(s)
    ensures r.(nodes := s.nodes) == s && r.nodes.Keys == s.nodes.Keys
    ensures Rescored(s, r.nodes, heuristic)
  {
    var hs := CalculateHScores(s, heuristic);
    var gs := CalculateGScores(hs);
    CalculateFScores(gs)
  }

  /** Scoring a configured grid leaves it in a state that satisfies the
      invariant once marked initialised. */
  lemma ScoredIsValid(s: State, heuristic: Heuristic)
    requires Configured(s)
    ensures Valid(CalculateScores(s, heuristic).(wasInit := true))
  {
    var r := CalculateScores(s, heuristic);
    assert Configured(r);
    forall p | p in r.nodes
      ensures r.nodes[p].f == ScoredF(r.walkable[p.y][p.x], r.nodes[p])
    {
    }
  }

  /** Every node carries the scores of the scoring pass and is unlinked. */
  predicate FreshlyScored(s: State, heuristic: Heuristic)
    requires Configured(s)
  {
    && Rescored(s, s.nodes, heuristic)
    && forall p :: p in s.nodes ==> s.nodes[p].parent.None?
  }

  /** The state a successful `init` builds before scoring: the requested
      size, mask and endpoints, and a fresh node on every cell. */
  function Configure(s: State, width: int, height: int, start: Pos, goal: Pos, walkable: seq<seq<bool>>): (r: State)
    ensures r.width == width && r.height == height && r.walkable == walkable
    ensures r.start == Some(start) && r.goal == Some(goal) && r.wasInit == s.wasInit
    ensures r.nodes.Keys == Cells(width, height)
    ensures forall p :: p in r.nodes ==> r.nodes[p] == NodeAt(p.x, p.y)
  {
    State(width, height, CreateNodes(width, height), walkable, Some(start), Some(goal), s.wasInit)
  }

  /** Scoring a freshly configured grid: every node stays unlinked at its
      own cell, with the sentinel G, H from the goal, and F as the mask
      dictates; the result is valid once marked initialised. */
  lemma ConfiguredScores(s: State, width: int, height: int, start: Pos, goal: Pos,
                         walkable: seq<seq<bool>>, heuristic: Heuristic)
    requires MaskShaped(walkable, width, height)
    requires 0 <= start.x < width && 0 <= start.y < height && 0 <= goal.x < width && 0 <= goal.y < height
    ensures var r := CalculateScores(Configure(s, width, height, start, goal, walkable), heuristic).(wasInit := true);
      && Valid(r) && r.nodes.Keys == Cells(width, height) && FreshlyScored(r, heuristic)
  {
    var c := Configure(s, width, height, start, goal, walkable);
    ScoredIsValid(c, heuristic);
  }

  /** The checks `init` makes before it assigns anything: both endpoints
      inside the grid, and distinct. */
  predicate InitAccepts(width: int, height: int, startX: int, startY: int, endX: int, endY: int)
  {
    && 0 <= startX < width && 0 <= startY < height
    && 0 <= endX < width && 0 <= endY < height
    && Pos(startX, startY) != Pos(endX, endY)
  }

  /** `init`. Returns whether it succeeded together with the new state. On
      failure nothing changes. On success the grid has the given size and
      mask, every cell holds a fresh unlinked node at its coordinates,
      scores are computed for the given goal, and the object is initialised.
      The start cell's walkability is never checked; the scoring reads it
      like any other cell's. */
  function Init(s: State, width: int, height: int, startX: int, startY: int, endX: int, endY: int,
                walkable: seq<seq<bool>>, heuristic: Heuristic): (r: (bool, State))
    requires InitAccepts(width, height, startX, startY, endX, endY) ==> MaskShaped(walkable, width, height)
    ensures r.0 <==> InitAccepts(width, height, startX, startY, endX, endY)
    ensures !r.0 ==> r.1 == s
    ensures r.0 ==>
              && Valid(r.1) && r.1.wasInit
              && r.1.width == width && r.1.height == height && r.1.walkable == walkable
              && r.1.start == Some(Pos(startX, startY)) && r.1.goal == Some(Pos(endX, endY))
              && r.1.nodes.Keys == Cells(width, height)
              && FreshlyScored(r.1, heuristic)
  {
    if startX < 0 || startY < 0 || startX >= width || startY >= height ||
       endX < 0 || endY < 0 || endX >= width || endY >= height || (startX == endX && startY == endY)
    then (false, s)
    else
      ConfiguredScores(s, width, height, Pos(startX, startY), Pos(endX, endY), walkable, heuristic);
      var configured := Configure(s, width, height, Pos(startX, startY), Pos(endX, endY), walkable);
      (true, CalculateScores(configured, heuristic).(wasInit := true))
  }

  /** `reset`: no cells, no endpoints, not initialised. The mask is left as
      it was; nothing reads it until the next successful `init` replaces it. */
  function Reset(s: State): (r: State)
    ensures Valid(r) && !r.wasInit
    ensures r.width == 0 && r.height == 0 && |r.nodes| == 0
    ensures r.start.None? && r.goal.None?
    ensures r.walkable == s.walkable
  {
    s.(start := None, goal := None, width := 0, height := 0, nodes := map[], wasInit := false)
  }

  /** `setStart`: out of range, nothing changes; otherwise the start moves
      and every score is recomputed, parent links being kept. */
  function SetStart(s: State, x: int, y: int, heuristic: Heuristic): (r: State)
    requires Valid(s)
    ensures Valid(r)
    ensures !InBounds(s, Pos(x, y)) ==> r == s
    ensures !s.wasInit ==> r == s
    ensures InBounds(s, Pos(x, y)) ==>
              && r.start == Some(Pos(x, y))
              && r == s.(start := r.start, nodes := r.nodes)
              && r.nodes.Keys == s.nodes.Keys
              && forall p :: p in r.nodes ==>
                   r.nodes[p].h == heuristic(p, s.goal.value) && r.nodes[p].parent == s.nodes[p].parent
  {
    if x < 0 || x >= s.width || y < 0 || y >= s.height then s
    else
      ScoredIsValid(s.(start := Some(Pos(x, y))), heuristic);
      CalculateScores(s.(start := Some(Pos(x, y))), heuristic)
  }

  /** `setEnd`: out of range, nothing changes; otherwise the goal moves and
      every score is recomputed against it, parent links being kept. */
  function SetEnd(s: State, x: int, y: int, heuristic: Heuristic): (r: State)
    requires Valid(s)
    ensures Valid(r)
    ensures !InBounds(s, Pos(x, y)) ==> r == s
    ensures !s.wasInit ==> r == s
    ensures InBounds(s, Pos(x, y)) ==>
              && r.goal == Some(Pos(x, y))
              && r == s.(goal := r.goal, nodes := r.nodes)
              && r.nodes.Keys == s.nodes.Keys
              && forall p :: p in r.nodes ==>
                   r.nodes[p].h == heuristic(p, Pos(x, y)) && r.nodes[p].parent == s.nodes[p].parent
  {
    if x < 0 || x >= s.width || y < 0 || y >= s.height then s
    else
      ScoredIsValid(s.(goal := Some(Pos(x, y))), heuristic);
      CalculateScores(s.(goal := Some(Pos(x, y))), heuristic)
  }

  /** The rank of `q` among the four directions around `p`, in the order
      the source enumerates them: left, right, up, down. */
  function Direction(p: Pos, q: Pos): int
  {
    if q.x < p.x then 0 else if q.x > p.x then 1 else if q.y < p.y then 2 else 3
  }

  /** `getWalkableAdjacentNodes`: the neighbours of (x, y) that are inside
      the grid and walkable, tried left, right, up, down. */
  function WalkableAdjacent(s: State, x: int, y: int): (r: seq<Pos>)
    requires MaskShaped(s.walkable, s.width, s.height) && InBounds(s, Pos(x, y))
    ensures |r| <= 4
    ensures forall i :: 0 <= i < |r| ==> InBounds(s, r[i]) && Adjacent(Pos(x, y), r[i]) && Walkable(s, r[i])
  {
    (if x > 0 && s.walkable[y][x - 1] then [Pos(x - 1, y)] else [])
    + (if x < s.width - 1 && s.walkable[y][x + 1] then [Pos(x + 1, y)] else [])
    + (if y > 0 && s.walkable[y - 1][x] then [Pos(x, y - 1)] else [])
    + (if y < s.height - 1 && s.walkable[y + 1][x] then [Pos(x, y + 1)] else [])
  }

  /** The neighbour list holds exactly the in-bounds walkable four-neighbours,
      in left, right, up, down order (so no cell twice). */
  lemma WalkableAdjacentExact(s: State, x: int, y: int)
    requires MaskShaped(s.walkable, s.width, s.height) && InBounds(s, Pos(x, y))
    ensures var r := WalkableAdjacent(s, x, y);
      forall q :: q in r <==> InBounds(s, q) && Adjacent(Pos(x, y), q) && Walkable(s, q)
    ensures var r := WalkableAdjacent(s, x, y);
      forall i, j :: 0 <= i < j < |r| ==> Direction(Pos(x, y), r[i]) < Direction(Pos(x, y), r[j])
  {
  }

  /** A four-connected walk over the grid: consecutive cells adjacent, every
      cell after the first inside the grid and walkable. The first cell is
      exempt because neither `init` nor the search checks the start cell's
      mask entry before searching from it. */
  predicate IsWalk(s: State, w: seq<Pos>)
    requires MaskShaped(s.walkable, s.width, s.height)
  {
    && |w| > 0
    && (forall i :: 0 < i < |w| ==> InBounds(s, w[i]) && Walkable(s, w[i]))
    && (forall i :: 0 <= i < |w| - 1 ==> Adjacent(w[i], w[i + 1]))
  }

  /** `to` can be reached from `from` by a walk. */
  ghost predicate Reachable(s: State, from: Pos, to: Pos)
    requires MaskShaped(s.walkable, s.width, s.height)
  {
    exists w :: IsWalk(s, w) && w[0] == from && w[|w| - 1] == to
  }
}

=== FILE: node.dfy ===
/** The node record of the search grid (AStarNode.h): a cell's coordinates,
    its three scores and a link to the cell it was reached from. */
module AStarNode {
  import opened Wrappers

  /** A grid coordinate. The source links nodes by pointer; here a link
      names the linked cell by its coordinate instead. */
  datatype Pos = Pos(x: int, y: int)

  /** One cell of the grid. `g` is the cost so far, `h` the heuristic
      estimate to the goal, `f` the priority the search orders cells by.
      The source stores the scores as `float`; they are reals here. */
  datatype Node = Node(parent: Option<Pos>, g: real, h: real, f: real, x: int, y: int)

  /** The coordinate a node records for itself. */
  function PosOf(n: Node): Pos
  {
    Pos(n.x, n.y)
  }

  /** The default constructor. */
  function DefaultNode(): (n: Node)
    ensures n.parent.None?
    ensures n.g == 0.0 && n.h == 0.0 && n.f == 0.0
    ensures PosOf(n) == Pos(0, 0)
  {
    Node(None, 0.0, 0.0, 0.0, 0, 0)
  }

  /** The constructor that places a fresh node at (x, y). */
  function NodeAt(x: int, y: int): (n: Node)
    ensures n.parent.None?
    ensures n.g == 0.0 && n.h == 0.0 && n.f == 0.0
    ensures PosOf(n) == Pos(x, y)
  {
    Node(None, 0.0, 0.0, 0.0, x, y)
  }

  // Setters: each one changes its own field and no other.

  function SetG(n: Node, g: real): (r: Node)
    ensures r.g == g
    ensures r.parent == n.parent && r.h == n.h && r.f == n.f && PosOf(r) == PosOf(n)
  {
    n.(g := g)
  }

  function SetF(n: Node, f: real): (r: Node)
    ensures r.f == f
    ensures r.parent == n.parent && r.g == n.g && r.h == n.h && PosOf(r) == PosOf(n)
  {
    n.(f := f)
  }

  function SetH(n: Node, h: real): (r: Node)
    ensures r.h == h
    ensures r.parent == n.parent && r.g == n.g && r.f == n.f && PosOf(r) == PosOf(n)
  {
    n.(h := h)
  }

  function SetX(n: Node, x: int): (r: Node)
    ensures r.x == x
    ensures r.parent == n.parent && r.g == n.g && r.h == n.h && r.f == n.f && r.y == n.y
  {
    n.(x := x)
  }

  function SetY(n: Node, y: int): (r: Node)
    ensures r.y == y
    ensures r.parent == n.parent && r.g == n.g && r.h == n.h && r.f == n.f && r.x == n.x
  {
    n.(y := y)
  }

  function SetParent(n: Node, parent: Option<Pos>): (r: Node)
    ensures r.parent == parent
    ensures r.g == n.g && r.h == n.h && r.f == n.f && PosOf(r) == PosOf(n)
  {
    n.(parent := parent)
  }

  // Getters.

  function GetG(n: Node): real { n.g }
  function GetF(n: Node): real { n.f }
  function GetH(n: Node): real { n.h }
  function GetX(n: Node): int { n.x }
  function GetY(n: Node): int { n.y }
  function GetParent(n: Node): Option<Pos> { n.parent }

  /** A getter returns what the matching setter stored. */
  lemma GetAfterSet(n: Node, v: real, i: int, p: Option<Pos>)
    ensures GetG(SetG(n, v)) == v && GetF(SetF(n, v)) == v && GetH(SetH(n, v)) == v
    ensures GetX(SetX(n, i)) == i && GetY(SetY(n, i)) == i
    ensures GetParent(SetParent(n, p)) == p
  {
  }

  /** The two constructors agree: the coordinate constructor is the default
      node moved to (x, y). */
  lemma NodeAtIsMovedDefault(x: int, y: int)
    ensures NodeAt(x, y) == SetY(SetX(DefaultNode(), x), y)
    ensures DefaultNode() == NodeAt(0, 0)
  {
  }
}

=== FILE: path.dfy ===
/** The path container (AStarPath.h): a deque of node snapshots with
    insertion at both ends and "next by coordinates" traversal. */
module AStarPath {
  import opened Wrappers
  import opened AStarNode

  /** The stored nodes, front first. */
  datatype Path = Path(nodes: seq<Node>)

  /** What the source's `getNextNode` receives: a pointer to one of the
      path's own elements, or to a node stored somewhere else. */
  datatype NodeRef = Stored(index: nat) | Detached(node: Node)

  /** A default-constructed path holds no nodes. */
  function EmptyPath(): (p: Path)
    ensures GetLength(p) == 0
  {
    Path([])
  }

  function AddNodeAtFront(p: Path, n: Node): (r: Path)
    ensures GetLength(r) == GetLength(p) + 1
    ensures r.nodes[0] == n && r.nodes[1..] == p.nodes
  {
    Path([n] + p.nodes)
  }

  function AddNodeAtEnd(p: Path, n: Node): (r: Path)
    ensures GetLength(r) == GetLength(p) + 1
    ensures r.nodes[|p.nodes|] == n && r.nodes[..|p.nodes|] == p.nodes
  {
    Path(p.nodes + [n])
  }

  /** The number of stored nodes: never negative, and zero exactly for a
      path holding no node. */
  function GetLength(p: Path): (n: int)
    ensures n >= 0
    ensures n == 0 <==> p.nodes == []
  {
    |p.nodes|
  }

  /** A pointer to the front element; the source dereferences the front of
      the deque, which an empty path does not have. */
  function GetFirstNode(p: Path): (r: nat)
    requires |p.nodes| > 0
    ensures r < |p.nodes| && p.nodes[r..] == p.nodes
  {
    0
  }

  /** The node a reference designates. */
  function Deref(p: Path, cur: NodeRef): Node
    requires cur.Stored? ==> cur.index < |p.nodes|
  {
    match cur
    case Stored(i) => p.nodes[i]
    case Detached(n) => n
  }

  /** The index of the first stored node whose coordinates are `at`. */
  function FirstMatch(nodes: seq<Node>, at: Pos): (r: Option<nat>)
    ensures r.Some? ==> r.value < |nodes| && PosOf(nodes[r.value]) == at
    ensures r.Some? ==> forall k :: 0 <= k < r.value ==> PosOf(nodes[k]) != at
    ensures r.None? ==> forall k :: 0 <= k < |nodes| ==> PosOf(nodes[k]) != at
  {
    if |nodes| == 0 then None
    else if nodes[0].x == at.x && nodes[0].y == at.y then Some(0)
    else
      match FirstMatch(nodes[1..], at)
      case None => None
      case Some(j) => Some(j + 1)
  }

  /** When `getNextNode` is defined: the source compares the argument with
      the address of the last element, so the path must not be empty; a
      stored reference must be in range; and a detached node whose
      coordinates first match the last element would make the source step
      one past the end. */
  predicate NextDefined(p: Path, cur: NodeRef)
  {
    && |p.nodes| > 0
    && match cur
       case Stored(i) => i < |p.nodes|
       case Detached(n) => FirstMatch(p.nodes, PosOf(n)) != Some(|p.nodes| - 1)
  }

  /** The element after the first stored node with the same coordinates as
      `cur`, or None when `cur` is the stored last element or no stored
      node has its coordinates. The result is an index into the path. */
  function GetNextNode(p: Path, cur: NodeRef): (r: Option<nat>)
    requires NextDefined(p, cur)
    ensures cur == Stored(|p.nodes| - 1) ==> r.None?
    ensures r.Some? ==> 0 < r.value < |p.nodes|
    ensures r.Some? ==> PosOf(p.nodes[r.value - 1]) == PosOf(Deref(p, cur))
    ensures r.Some? ==> forall k :: 0 <= k < r.value - 1 ==> PosOf(p.nodes[k]) != PosOf(Deref(p, cur))
    ensures r.None? && cur != Stored(|p.nodes| - 1) ==>
              forall k :: 0 <= k < |p.nodes| ==> PosOf(p.nodes[k]) != PosOf(Deref(p, cur))
  {
    if cur == Stored(|p.nodes| - 1) then None
    else
      match FirstMatch(p.nodes, PosOf(Deref(p, cur)))
      case None => None
      case Some(j) => Some(j + 1)
  }

  /** No two stored nodes share coordinates. */
  predicate DistinctCoords(p: Path)
  {
    forall i, j :: 0 <= i < j < |p.nodes| ==> PosOf(p.nodes[i]) != PosOf(p.nodes[j])
  }

  /** The nodes met by starting at `cur` and following `getNextNode` at most
      `budget` times, stopping at null; the driver program walks a returned
      path this way with budget `getLength()`. */
  function Visit(p: Path, cur: Option<nat>, budget: nat): (r: seq<Node>)
    requires |p.nodes| > 0
    requires cur.Some? ==> cur.value < |p.nodes|
    ensures |r| <= budget
    ensures forall i :: 0 <= i < |r| ==> r[i] in p.nodes
    ensures budget > 0 && cur.Some? ==> |r| > 0 && r[0] == p.nodes[cur.value]
    ensures cur.None? ==> r == []
    decreases budget
  {
    if budget == 0 || cur.None? then []
    else [p.nodes[cur.value]] + Visit(p, GetNextNode(p, Stored(cur.value)), budget - 1)
  }

  /** With distinct coordinates, `getNextNode` steps to the following
      element, and yields null on the last one. */
  lemma NextIsSuccessor(p: Path, i: nat)
    requires DistinctCoords(p)
    requires i < |p.nodes|
    ensures GetNextNode(p, Stored(i)) == if i == |p.nodes| - 1 then None else Some(i + 1)
  {
    if i < |p.nodes| - 1 {
      var m := FirstMatch(p.nodes, PosOf(p.nodes[i]));
      assert m.Some?;
      assert m.value == i;
    }
  }

  /** Walking from element `i` visits the rest of the path in order. */
  lemma {:induction false} VisitFrom(p: Path, i: nat)
    requires DistinctCoords(p)
    requires i < |p.nodes|
    ensures Visit(p, Some(i), |p.nodes| - i) == p.nodes[i..]
    decreases |p.nodes| - i
  {
    NextIsSuccessor(p, i);
    if i == |p.nodes| - 1 {
      assert Visit(p, None, 0) == [];
    } else {
      VisitFrom(p, i + 1);
      assert p.nodes[i..] == [p.nodes[i]] + p.nodes[i + 1..];
    }
  }

  /** Starting at the first node and following `getNextNode` as many times
      as the path is long visits every element in order; the last step
      yields null. */
  lemma TraversalVisitsAll(p: Path)
    requires |p.nodes| > 0
    requires DistinctCoords(p)
    ensures Visit(p, Some(GetFirstNode(p)), GetLength(p)) == p.nodes
    ensures GetNextNode(p, Stored(GetLength(p) - 1)).None?
  {
    VisitFrom(p, 0);
  }

  /** Insertion at the two ends commutes, and the first node after a front
      insertion is the inserted node. */
  lemma AddsCommute(p: Path, a: Node, b: Node)
    ensures AddNodeAtEnd(AddNodeAtFront(p, a), b) == AddNodeAtFront(AddNodeAtEnd(p, b), a)
    ensures AddNodeAtFront(p, a).nodes[GetFirstNode(AddNodeAtFront(p, a))] == a
    ensures var q := AddNodeAtEnd(p, b); q.nodes[GetLength(q) - 1] == b
  {
    assert [a] + (p.nodes + [b]) == ([a] + p.nodes) + [b];
  }

  /** Repeated coordinates make traversal revisit: on a path A, B, A' (A'
      a distinct node at A's coordinates), the successor of the third
      element is the second one again. */
  lemma RepeatedCoordsLoopBack(a: Node, b: Node, a': Node)
    requires PosOf(a) == PosOf(a') && PosOf(b) != PosOf(a) && a != a'
    ensures var p := Path([a, b, a', b]); GetNextNode(p, Stored(2)) == Some(1)
  {
    var p := Path([a, b, a', b]);
    assert FirstMatch(p.nodes, PosOf(a')) == Some(0);
  }

  /** Every node after the first names the node before it as its parent:
      the path is the parent chain read backwards from its last node. */
  predicate ParentLinked(p: Path)
  {
    forall i :: 1 <= i < |p.nodes| ==> p.nodes[i].parent == Some(PosOf(p.nodes[i - 1]))
  }

  /** `p` is linked and its first node, if any, names `cur` as parent. */
  predicate LinkedFrom(p: Path, cur: Pos)
  {
    ParentLinked(p) && (|p.nodes| > 0 ==> p.nodes[0].parent == Some(cur))
  }

  /** Putting in front of a linked path the node its first node names as
      parent keeps it linked. */
  lemma LinkedPrepend(p: Path, n: Node, q: Option<Pos>)
    requires LinkedFrom(p, PosOf(n))
    ensures ParentLinked(AddNodeAtFront(p, n))
    ensures q == n.parent && q.Some? ==> LinkedFrom(AddNodeAtFront(p, n), q.value)
  {
  }
}

=== FILE: search.dfy ===
/** The search half of the search object (AStarSearch.h `calculatePath`):
    open and closed lists, selection of the next cell, expansion of its
    neighbours with parent links, and reconstruction of the path. */
module Search {
  import opened Wrappers
  import opened AStarNode
  import opened AStarPath
  import opened Grid

  /** What `calculatePath` delivers: the two errors it throws, or a path. */
  datatype Outcome = NotInitialized | NoPath | Found(path: Path)

  /** The working lists of one search and the node arena it updates. */
  datatype Frontier = Frontier(open: seq<Pos>, closed: seq<Pos>, nodes: map<Pos, Node>)

  predicate Distinct(xs: seq<Pos>)
  {
    forall i, j :: 0 <= i < j < |xs| ==> xs[i] != xs[j]
  }

  /** `listContains`: a linear scan for the cell. */
  function ListContains(v: seq<Pos>, toFind: Pos): (b: bool)
    ensures b <==> toFind in v
  {
    if |v| == 0 then false
    else if v[0] == toFind then true
    else ListContains(v[1..], toFind)
  }

  /** The index `std::find` stops at: the first occurrence. */
  function FirstIndexOf(v: seq<Pos>, c: Pos): (i: nat)
    requires c in v
    ensures i < |v| && v[i] == c
    ensures forall k :: 0 <= k < i ==> v[k] != c
  {
    if v[0] == c then 0 else 1 + FirstIndexOf(v[1..], c)
  }

  /** `erase(find(...))`: the list without the first occurrence of `c`, the
      other entries in their order. */
  function EraseFirst(v: seq<Pos>, c: Pos): (r: seq<Pos>)
    requires c in v
    ensures |r| == |v| - 1
    ensures forall k :: 0 <= k < |r| ==> r[k] == v[if k < FirstIndexOf(v, c) then k else k + 1]
  {
    var i := FirstIndexOf(v, c);
    v[..i] + v[i + 1..]
  }

  /** The selection scan from `index` on: an entry whose F is at most the
      F of the best entry so far replaces it. */
  function ScanLowest(open: seq<Pos>, nodes: map<Pos, Node>, index: nat, best: nat): (r: nat)
    requires forall i :: 0 <= i < |open| ==> open[i] in nodes
    requires best < |open| && index <= |open|
    requires forall j :: 0 <= j < index ==> nodes[open[best]].f <= nodes[open[j]].f
    requires forall j :: best < j < index ==> nodes[open[best]].f < nodes[open[j]].f
    ensures r < |open|
    ensures forall j :: 0 <= j < |open| ==> nodes[open[r]].f <= nodes[open[j]].f
    ensures forall j :: r < j < |open| ==> nodes[open[r]].f < nodes[open[j]].f
    decreases |open| - index
  {
    if index == |open| then best
    else if nodes[open[index]].f <= nodes[open[best]].f then ScanLowest(open, nodes, index + 1, index)
    else ScanLowest(open, nodes, index + 1, best)
  }

  /** The entry the search expands next: the last open entry whose F is
      minimal (the source's comment calls it the "lastly added"). */
  function SelectLowest(open: seq<Pos>, nodes: map<Pos, Node>): (r: nat)
    requires |open| > 0
    requires forall i :: 0 <= i < |open| ==> open[i] in nodes
    ensures r < |open|
    ensures forall j :: 0 <= j < |open| ==> nodes[open[r]].f <= nodes[open[j]].f
    ensures forall j :: r < j < |open| ==> nodes[open[r]].f < nodes[open[j]].f
  {
    ScanLowest(open, nodes, 0, 0)
  }

  /** One pass of the inner loop, for neighbour `n` of `cur`: a closed
      neighbour is skipped; one not yet open gets `cur` as parent and is
      appended to the open list; one already open has its G lowered, and its
      parent set to `cur`, when G through `cur` is smaller. */
  function VisitNeighbour(cur: Pos, n: Pos, open: seq<Pos>, closed: seq<Pos>, nodes: map<Pos, Node>)
    : (r: (seq<Pos>, map<Pos, Node>))
    requires cur in nodes && n in nodes
    ensures r.1.Keys == nodes.Keys
    ensures forall q :: q in nodes && q != n ==> r.1[q] == nodes[q]
    ensures r.1[n] == nodes[n] || (n !in closed && r.1[n] == nodes[n].(g := r.1[n].g, parent := Some(cur)))
    ensures r.1[n].g == nodes[n].g || r.1[n].g == nodes[cur].g + 1.0 < nodes[n].g
    ensures n !in closed && n !in open ==> r.0 == open + [n] && r.1[n] == nodes[n].(parent := Some(cur))
    ensures n in closed || n in open ==> r.0 == open
    ensures n !in closed && n in open && nodes[cur].g + 1.0 < nodes[n].g ==>
              r.1[n] == nodes[n].(g := nodes[cur].g + 1.0, parent := Some(cur))
    ensures n in closed || (n in open && !(nodes[cur].g + 1.0 < nodes[n].g)) ==> r.1[n] == nodes[n]
  {
    if n in closed then (open, nodes)
    else if !ListContains(open, n) then (open + [n], nodes[n := SetParent(nodes[n], Some(cur))])
    else
      var gScoreFromHere := nodes[cur].g + 1.0;
      if gScoreFromHere < nodes[n].g then
        (open, nodes[n := SetParent(SetG(nodes[n], gScoreFromHere), Some(cur))])
      else
        (open, nodes)
  }

  /** The inner loop over the neighbours `nbs` of `cur`, in order. */
  function Expand(cur: Pos, nbs: seq<Pos>, open: seq<Pos>, closed: seq<Pos>, nodes: map<Pos, Node>)
    : (r: (seq<Pos>, map<Pos, Node>))
    requires cur in nodes
    requires forall i :: 0 <= i < |nbs| ==> nbs[i] in nodes
    ensures r.1.Keys == nodes.Keys
    ensures forall q :: q in nodes ==> r.1[q] == nodes[q].(g := r.1[q].g, parent := r.1[q].parent)
    ensures |open| <= |r.0| && r.0[..|open|] == open
    ensures forall q :: q in r.0 <==> q in open || (q in nbs && q !in closed)
    decreases |nbs|
  {
    if |nbs| == 0 then (open, nodes)
    else
      var v := VisitNeighbour(cur, nbs[0], open, closed, nodes);
      Expand(cur, nbs[1..], v.0, closed, v.1)
  }

  /** Every node `r` changes is an unclosed cell of `nbs` and has `cur` as
      its parent. */
  predicate ChangesLinked(cur: Pos, nbs: seq<Pos>, closed: seq<Pos>, nodes: map<Pos, Node>, r: map<Pos, Node>)
  {
    forall q :: q in nodes && q in r && r[q] != nodes[q] ==> q in nbs && q !in closed && r[q].parent == Some(cur)
  }

  /** Only unclosed neighbours change, and each that changes gets `cur`
      as its parent, provided no neighbour comes twice. */
  lemma {:induction false} ExpandChanges(cur: Pos, nbs: seq<Pos>, open: seq<Pos>, closed: seq<Pos>, nodes: map<Pos, Node>)
    requires cur in nodes
    requires forall i :: 0 <= i < |nbs| ==> nbs[i] in nodes
    requires Distinct(nbs)
    ensures ChangesLinked(cur, nbs, closed, nodes, Expand(cur, nbs, open, closed, nodes).1)
    decreases |nbs|
  {
    if |nbs| > 0 {
      var n := nbs[0];
      var v := VisitNeighbour(cur, n, open, closed, nodes);
      ExpandChanges(cur, nbs[1..], v.0, closed, v.1);
      assert forall q :: q in nbs[1..] ==> q in nbs && q != n;
    }
  }

  /** Entries of `r`'s open list past the first `|open|` are unclosed
      neighbours that were not open before, each linked to `cur`. */
  predicate AppendsLinked(cur: Pos, nbs: seq<Pos>, open: seq<Pos>, closed: seq<Pos>, r: (seq<Pos>, map<Pos, Node>))
  {
    forall i :: |open| <= i < |r.0| ==>
      r.0[i] in nbs && r.0[i] !in open && r.0[i] !in closed && r.0[i] in r.1 && r.1[r.0[i]].parent == Some(cur)
  }

  /** Entries appended to the open list are unclosed neighbours that were
      not open before, each linked to `cur`. */
  lemma {:induction false} ExpandAppends(cur: Pos, nbs: seq<Pos>, open: seq<Pos>, closed: seq<Pos>, nodes: map<Pos, Node>)
    requires cur in nodes
    requires forall i :: 0 <= i < |nbs| ==> nbs[i] in nodes
    requires Distinct(nbs)
    ensures AppendsLinked(cur, nbs, open, closed, Expand(cur, nbs, open, closed, nodes))
    decreases |nbs|
  {
    if |nbs| > 0 {
      var n := nbs[0];
      var v := VisitNeighbour(cur, n, open, closed, nodes);
      var r := Expand(cur, nbs[1..], v.0, closed, v.1);
      ExpandAppends(cur, nbs[1..], v.0, closed, v.1);
      ExpandChanges(cur, nbs[1..], v.0, closed, v.1);
      assert Expand(cur, nbs, open, closed, nodes) == r;
      forall i | |open| <= i < |r.0|
        ensures r.0[i] in nbs && r.0[i] !in open && r.0[i] !in closed && r.0[i] in r.1 && r.1[r.0[i]].parent == Some(cur)
      {
        if i < |v.0| {
          assert v.0 == open + [n] && i == |open|;
          assert r.0[i] == v.0[i] == n;
          assert n !in nbs[1..];
        } else {
          assert r.0[i] in nbs[1..];
        }
      }
    }
  }

  /** The inner loop adds no repeat to an open list without repeats. */
  lemma {:induction false} ExpandKeepsDistinct(cur: Pos, nbs: seq<Pos>, open: seq<Pos>, closed: seq<Pos>, nodes: map<Pos, Node>)
    requires cur in nodes
    requires forall i :: 0 <= i < |nbs| ==> nbs[i] in nodes
    requires Distinct(open)
    ensures Distinct(Expand(cur, nbs, open, closed, nodes).0)
    decreases |nbs|
  {
    if |nbs| > 0 {
      var v := VisitNeighbour(cur, nbs[0], open, closed, nodes);
      ExpandKeepsDistinct(cur, nbs[1..], v.0, closed, v.1);
    }
  }

  /** While every G is the sentinel, G through `cur` is never smaller than
      a neighbour's, so the inner loop changes parent links only. */
  lemma {:induction false} ExpandKeepsScores(cur: Pos, nbs: seq<Pos>, open: seq<Pos>, closed: seq<Pos>, nodes: map<Pos, Node>)
    requires cur in nodes
    requires forall i :: 0 <= i < |nbs| ==> nbs[i] in nodes
    requires forall q :: q in nodes ==> nodes[q].g == Sentinel
    ensures var r := Expand(cur, nbs, open, closed, nodes);
      forall q :: q in nodes ==> r.1[q] == nodes[q].(parent := r.1[q].parent)
    decreases |nbs|
  {
    if |nbs| > 0 {
      var v := VisitNeighbour(cur, nbs[0], open, closed, nodes);
      ExpandKeepsScores(cur, nbs[1..], v.0, closed, v.1);
    }
  }

  /** What the inner loop does to each unclosed neighbour, when no neighbour
      comes twice: one not yet open is linked to `cur` and nothing else about
      it changes; an open one whose G through `cur` is smaller gets that G
      and `cur` as parent; any other open one is left as it was. */
  predicate Relaxed(cur: Pos, nbs: seq<Pos>, open: seq<Pos>, closed: seq<Pos>, nodes: map<Pos, Node>, r: map<Pos, Node>)
    requires cur in nodes
  {
    forall q :: q in nbs && q !in closed && q in nodes && q in r ==>
      && (q !in open ==> r[q] == nodes[q].(parent := Some(cur)))
      && (q in open && nodes[cur].g + 1.0 < nodes[q].g ==> r[q] == nodes[q].(g := nodes[cur].g + 1.0, parent := Some(cur)))
      && (q in open && !(nodes[cur].g + 1.0 < nodes[q].g) ==> r[q] == nodes[q])
  }

  /** The inner loop relaxes exactly as one pass per neighbour prescribes. */
  lemma {:induction false} ExpandRelaxes(cur: Pos, nbs: seq<Pos>, open: seq<Pos>, closed: seq<Pos>, nodes: map<Pos, Node>)
    requires cur in nodes
    requires forall i :: 0 <= i < |nbs| ==> nbs[i] in nodes
    requires Distinct(nbs)
    ensures Relaxed(cur, nbs, open, closed, nodes, Expand(cur, nbs, open, closed, nodes).1)
    decreases |nbs|
  {
    if |nbs| > 0 {
      var n := nbs[0];
      var v := VisitNeighbour(cur, n, open, closed, nodes);
      var r := Expand(cur, nbs[1..], v.0, closed, v.1);
      assert Expand(cur, nbs, open, closed, nodes) == r;
      ExpandRelaxes(cur, nbs[1..], v.0, closed, v.1);
      ExpandChanges(cur, nbs[1..], v.0, closed, v.1);
      assert v.1[cur].g == nodes[cur].g;
      forall q | q in nbs && q !in closed && q in nodes && q in r.1
        ensures q !in open ==> r.1[q] == nodes[q].(parent := Some(cur))
        ensures q in open && nodes[cur].g + 1.0 < nodes[q].g ==>
                  r.1[q] == nodes[q].(g := nodes[cur].g + 1.0, parent := Some(cur))
        ensures q in open && !(nodes[cur].g + 1.0 < nodes[q].g) ==> r.1[q] == nodes[q]
      {
        if q == n {
          assert n !in nbs[1..];
          assert r.1[n] == v.1[n];
        } else {
          assert q in nbs[1..];
          assert v.1[q] == nodes[q];
          assert q in v.0 <==> q in open;
        }
      }
    }
  }

  /** In a list without repeats, `std::find` stops at the entry itself. */
  lemma FirstIndexOfDistinct(v: seq<Pos>, i: nat)
    requires Distinct(v) && i < |v|
    ensures FirstIndexOf(v, v[i]) == i
  {
  }

  /** Dropping entry `i` from a list without repeats leaves a list without
      repeats that lacks that entry and holds nothing new. */
  lemma RemoveAtDistinct(v: seq<Pos>, i: nat)
    requires Distinct(v) && i < |v|
    ensures Distinct(v[..i] + v[i + 1..])
    ensures v[i] !in v[..i] + v[i + 1..]
    ensures forall x :: x in v[..i] + v[i + 1..] ==> x in v
    ensures forall x :: x in v && x != v[i] ==> x in v[..i] + v[i + 1..]
  {
    var r := v[..i] + v[i + 1..];
    assert forall a :: 0 <= a < |r| ==> r[a] == v[if a < i then a else a + 1];
  }

  /** Erasing an entry from a list without repeats removes that entry only. */
  lemma EraseDistinct(v: seq<Pos>, i: nat)
    requires Distinct(v) && i < |v|
    ensures EraseFirst(v, v[i]) == v[..i] + v[i + 1..]
    ensures Distinct(EraseFirst(v, v[i]))
    ensures v[i] !in EraseFirst(v, v[i])
    ensures forall x :: x in EraseFirst(v, v[i]) ==> x in v
    ensures forall x :: x in v && x != v[i] ==> x in EraseFirst(v, v[i])
  {
    FirstIndexOfDistinct(v, i);
    assert EraseFirst(v, v[i]) == v[..i] + v[i + 1..];
    RemoveAtDistinct(v, i);
  }

  /** What the search needs of the grid: it was initialised, its arena,
      mask and endpoints are in place, and every G is the sentinel. */
  predicate Ready(s: State)
  {
    && s.wasInit && Configured(s)
    && forall p :: p in s.nodes ==> s.nodes[p].g == Sentinel
  }

  /** What one pass of the loop body may assume. */
  predicate StepReady(s: State, fr: Frontier)
  {
    && Ready(s)
    && |fr.open| > 0
    && fr.nodes.Keys == s.nodes.Keys
    && (forall q :: q in fr.open ==> q in s.nodes)
  }

  /** The open entry one pass of the loop body selects. */
  function Current(fr: Frontier): Pos
    requires |fr.open| > 0
    requires forall q :: q in fr.open ==> q in fr.nodes
  {
    fr.open[SelectLowest(fr.open, fr.nodes)]
  }

  /** One pass of the loop body, returning whether the goal was reached.
      The selected entry leaves the open list, the others keeping their
      order, and is appended to the closed list; the pass succeeds exactly
      when the goal is then closed. Otherwise the selected cell's neighbours
      are expanded, which only appends to the open list. */
  function Step(s: State, fr: Frontier): (r: (bool, Frontier))
    requires StepReady(s, fr)
    ensures r.1.closed == fr.closed + [Current(fr)]
    ensures r.0 <==> Current(fr) == s.goal.value || s.goal.value in fr.closed
    ensures r.0 ==> r.1.open == EraseFirst(fr.open, Current(fr)) && r.1.nodes == fr.nodes
    ensures |fr.open| - 1 <= |r.1.open| && r.1.open[..|fr.open| - 1] == EraseFirst(fr.open, Current(fr))
    ensures r.1.nodes.Keys == fr.nodes.Keys
    ensures forall q :: q in r.1.open ==> q in s.nodes
  {
    var cur := Current(fr);
    var open := EraseFirst(fr.open, cur);
    var closed := fr.closed + [cur];
    if ListContains(closed, s.goal.value) then
      (true, Frontier(open, closed, fr.nodes))
    else
      var expanded := ExpandCurrent(s, cur, open, closed, fr.nodes);
      (false, Frontier(expanded.0, closed, expanded.1))
  }

  /** The expansion of the selected cell `cur`: its walkable neighbours
      are fed to the inner loop. */
  function ExpandCurrent(s: State, cur: Pos, open: seq<Pos>, closed: seq<Pos>, nodes: map<Pos, Node>)
    : (r: (seq<Pos>, map<Pos, Node>))
    requires Ready(s) && cur in s.nodes && nodes.Keys == s.nodes.Keys
    ensures r.1.Keys == nodes.Keys
    ensures |open| <= |r.0| && r.0[..|open|] == open
    ensures forall q :: q in r.0 ==> q in open || q in s.nodes
  {
    WalkableAdjacentExact(s, cur.x, cur.y);
    var nbs := WalkableAdjacent(s, cur.x, cur.y);
    assert forall q :: q in nbs ==> q in s.nodes;
    Expand(cur, nbs, open, closed, nodes)
  }

  /** The arena differs from the grid's only in parent links. */
  predicate Scored(s: State, nodes: map<Pos, Node>)
  {
    && nodes.Keys == s.nodes.Keys
    && forall q :: q in s.nodes ==> nodes[q] == s.nodes[q].(parent := nodes[q].parent)
  }

  /** A relinked arena keeps the sentinel G everywhere. */
  lemma ScoredSentinel(s: State, nodes: map<Pos, Node>)
    requires Ready(s) && Scored(s, nodes)
    ensures forall q :: q in nodes ==> nodes[q].g == Sentinel
  {
    forall q | q in nodes ensures nodes[q].g == Sentinel
    {
      assert nodes[q] == s.nodes[q].(parent := nodes[q].parent);
    }
  }

  /** Relinking the arena keeps the grid valid. */
  lemma RelinkedIsValid(s: State, nodes: map<Pos, Node>)
    requires Valid(s) && Scored(s, nodes)
    ensures Valid(s.(nodes := nodes))
  {
    var s' := s.(nodes := nodes);
    assert ArenaShaped(s') by {
      forall q | q in nodes ensures PosOf(nodes[q]) == q
      {
        assert nodes[q] == s.nodes[q].(parent := nodes[q].parent);
      }
    }
  }

  /** Both lists hold grid cells without repeats and share none; the start
      cell is the whole open list before the first pass and the first closed
      cell after it. */
  predicate ListsInv(s: State, fr: Frontier)
    requires Ready(s)
  {
    && (forall q :: q in fr.open ==> q in s.nodes && q !in fr.closed)
    && (forall q :: q in fr.closed ==> q in s.nodes)
    && Distinct(fr.open) && Distinct(fr.closed)
    && (|fr.closed| == 0 ==> fr.open == [s.start.value])
    && (|fr.closed| > 0 ==> fr.closed[0] == s.start.value)
  }

  /** `c` is a walkable cell whose parent link names a neighbour of `c`
      among `earlier`. */
  predicate LinkedTo(s: State, nodes: map<Pos, Node>, c: Pos, earlier: seq<Pos>)
    requires Ready(s)
  {
    && c in nodes && InBounds(s, c) && Walkable(s, c)
    && nodes[c].parent.Some?
    && nodes[c].parent.value in earlier
    && Adjacent(nodes[c].parent.value, c)
  }

  /** Every closed cell but the start links to a cell closed before it, and
      every open cell links to a closed one. */
  predicate LinksInv(s: State, fr: Frontier)
    requires Ready(s)
  {
    && (forall k :: 1 <= k < |fr.closed| ==> LinkedTo(s, fr.nodes, fr.closed[k], fr.closed[..k]))
    && (|fr.closed| > 0 ==> forall i :: 0 <= i < |fr.open| ==> LinkedTo(s, fr.nodes, fr.open[i], fr.closed))
  }

  /** Every closed cell has been expanded: each walkable grid cell adjacent
      to it is open or closed. */
  ghost predicate ExpandedInv(s: State, fr: Frontier)
    requires Ready(s) && ListsInv(s, fr)
  {
    forall c, n {:trigger Adjacent(c, n), c in fr.closed} ::
      c in fr.closed && InBounds(s, n) && Adjacent(c, n) && Walkable(s, n) ==> n in fr.open || n in fr.closed
  }

  /** The loop invariant; `reached` says the last pass closed the goal. */
  ghost predicate SearchInv(s: State, fr: Frontier, reached: bool)
    requires Ready(s)
  {
    && Scored(s, fr.nodes)
    && ListsInv(s, fr)
    && LinksInv(s, fr)
    && (!reached ==> ExpandedInv(s, fr) && s.goal.value !in fr.closed)
    && (reached ==> |fr.closed| > 0 && fr.closed[|fr.closed| - 1] == s.goal.value)
  }

  /** The state of one pass after it has selected `cur` and erased it
      from the open list, leaving `open`. */
  ghost predicate Selected(s: State, fr: Frontier, cur: Pos, open: seq<Pos>)
  {
    && Ready(s)
    && SearchInv(s, fr, false)
    && |fr.open| > 0
    && cur in fr.open && cur !in fr.closed && cur in s.nodes
    && Distinct(open) && cur !in open
    && (forall x :: x in open ==> x in fr.open)
    && (forall x :: x in fr.open && x != cur ==> x in open)
    && (|fr.closed| == 0 ==> cur == s.start.value && open == [])
  }

  /** Selecting and erasing sets up `Selected`. */
  lemma SelectSetsUp(s: State, fr: Frontier)
    requires Ready(s)
    requires SearchInv(s, fr, false) && |fr.open| > 0
    ensures StepReady(s, fr)
    ensures Selected(s, fr, Current(fr), EraseFirst(fr.open, Current(fr)))
  {
    var i := SelectLowest(fr.open, fr.nodes);
    EraseDistinct(fr.open, i);
    if |fr.closed| == 0 {
      assert fr.open == [s.start.value];
    }
  }

  /** Closing the goal: the lists stay well formed and every link holds. */
  lemma ReachedKeepsInv(s: State, fr: Frontier, cur: Pos, open: seq<Pos>)
    requires Selected(s, fr, cur, open) && cur == s.goal.value
    ensures SearchInv(s, Frontier(open, fr.closed + [cur], fr.nodes), true)
  {
    ExpandKeepsLists(s, fr, cur, open, open, fr.nodes);
    ExpandKeepsClosedLinks(s, fr, cur, open, fr.nodes);
    ExpandKeepsOpenLinks(s, fr, cur, open, open, fr.nodes);
  }

  /** The lists after expanding `cur` stay well formed when the new open
      list has no repeats and holds only unclosed cells. */
  lemma ExpandKeepsLists(s: State, fr: Frontier, cur: Pos, open: seq<Pos>, open': seq<Pos>, nodes': map<Pos, Node>)
    requires Selected(s, fr, cur, open)
    requires Distinct(open')
    requires forall q :: q in open' ==> q in open || (q in s.nodes && q !in fr.closed && q != cur)
    ensures ListsInv(s, Frontier(open', fr.closed + [cur], nodes'))
  {
  }

  /** A closed cell keeps its link when its node is untouched. */
  lemma ClosedLinkKept(s: State, fr: Frontier, cur: Pos, open: seq<Pos>, nodes': map<Pos, Node>, k: nat)
    requires Selected(s, fr, cur, open)
    requires nodes'.Keys == fr.nodes.Keys
    requires 1 <= k < |fr.closed| + 1
    requires var c := (fr.closed + [cur])[k]; nodes'[c] == fr.nodes[c]
    ensures var closed := fr.closed + [cur]; LinkedTo(s, nodes', closed[k], closed[..k])
  {
    var closed := fr.closed + [cur];
    if k < |fr.closed| {
      assert closed[..k] == fr.closed[..k];
      assert closed[k] == fr.closed[k];
      assert LinkedTo(s, fr.nodes, fr.closed[k], fr.closed[..k]);
    } else {
      assert closed[..k] == fr.closed;
      assert cur in fr.open;
      assert LinkedTo(s, fr.nodes, cur, fr.closed);
    }
  }

  /** Closed cells keep their links when their nodes are untouched. */
  lemma ExpandKeepsClosedLinks(s: State, fr: Frontier, cur: Pos, open: seq<Pos>, nodes': map<Pos, Node>)
    requires Selected(s, fr, cur, open)
    requires nodes'.Keys == fr.nodes.Keys
    requires forall q :: q in fr.closed + [cur] ==> nodes'[q] == fr.nodes[q]
    ensures var closed := fr.closed + [cur];
      forall k :: 1 <= k < |closed| ==> LinkedTo(s, nodes', closed[k], closed[..k])
  {
    var closed := fr.closed + [cur];
    forall k | 1 <= k < |closed|
      ensures LinkedTo(s, nodes', closed[k], closed[..k])
    {
      assert closed[k] in closed;
      ClosedLinkKept(s, fr, cur, open, nodes', k);
    }
  }

  /** Open cells link to closed ones after expanding `cur`: each either kept
      its node, or is a walkable neighbour of `cur` now linked to it. */
  lemma ExpandKeepsOpenLinks(s: State, fr: Frontier, cur: Pos, open: seq<Pos>, open': seq<Pos>, nodes': map<Pos, Node>)
    requires Selected(s, fr, cur, open)
    requires nodes'.Keys == fr.nodes.Keys
    requires forall q :: q in open' ==>
      || (q in open && nodes'[q] == fr.nodes[q])
      || (InBounds(s, q) && Adjacent(cur, q) && Walkable(s, q) && nodes'[q].parent == Some(cur))
    ensures forall i :: 0 <= i < |open'| ==> LinkedTo(s, nodes', open'[i], fr.closed + [cur])
  {
    forall i | 0 <= i < |open'|
      ensures LinkedTo(s, nodes', open'[i], fr.closed + [cur])
    {
      var q := open'[i];
      assert q in open';
      if q in open && nodes'[q] == fr.nodes[q] {
        assert q in fr.open;
        assert |fr.closed| > 0;
        assert LinkedTo(s, fr.nodes, q, fr.closed);
      }
    }
  }

  /** Closed cells stay expanded once `cur`'s neighbours are open or closed. */
  lemma ExpandKeepsExpanded(s: State, fr: Frontier, cur: Pos, open: seq<Pos>, open': seq<Pos>, nodes': map<Pos, Node>)
    requires Selected(s, fr, cur, open)
    requires ListsInv(s, Frontier(open', fr.closed + [cur], nodes'))
    requires forall q :: q in open ==> q in open'
    requires forall n :: n in WalkableAdjacent(s, cur.x, cur.y) ==> n in open' || n in fr.closed + [cur]
    ensures ExpandedInv(s, Frontier(open', fr.closed + [cur], nodes'))
  {
    var closed := fr.closed + [cur];
    forall c, n | c in closed && InBounds(s, n) && Adjacent(c, n) && Walkable(s, n)
      ensures n in open' || n in closed
    {
      if c in fr.closed {
        assert n in fr.open || n in fr.closed;
      } else {
        WalkableAdjacentExact(s, cur.x, cur.y);
        assert n in WalkableAdjacent(s, cur.x, cur.y);
      }
    }
  }

  /** Each entry of the open list after the inner loop was already open
      with its node untouched, or is a neighbour now linked to `cur`. */
  lemma ExpandedEntries(cur: Pos, nbs: seq<Pos>, open: seq<Pos>, closed: seq<Pos>, nodes: map<Pos, Node>)
    requires cur in nodes
    requires forall i :: 0 <= i < |nbs| ==> nbs[i] in nodes
    requires Distinct(nbs)
    requires forall q :: q in open ==> q in nodes
    ensures var e := Expand(cur, nbs, open, closed, nodes);
      forall q :: q in e.0 ==>
        || (q in open && e.1[q] == nodes[q])
        || (q in nbs && e.1[q].parent == Some(cur))
  {
    var e := Expand(cur, nbs, open, closed, nodes);
    ExpandAppends(cur, nbs, open, closed, nodes);
    ExpandChanges(cur, nbs, open, closed, nodes);
    forall q | q in e.0
      ensures || (q in open && e.1[q] == nodes[q])
              || (q in nbs && e.1[q].parent == Some(cur))
    {
      var j :| 0 <= j < |e.0| && e.0[j] == q;
      if j < |open| {
        assert e.0[..|open|][j] == open[j];
      }
    }
  }

  /** What expanding `cur` does to the lists and the arena, stated without
      the loop invariant: only parent links change, and only on unclosed
      walkable neighbours of `cur`, which end up open and linked to it. */
  lemma ExpandCurrentFacts(s: State, cur: Pos, open: seq<Pos>, closed: seq<Pos>, nodes: map<Pos, Node>)
    requires Ready(s) && cur in s.nodes && Scored(s, nodes)
    requires Distinct(open) && (forall q :: q in open ==> q in nodes) && (forall q :: q in closed ==> q in nodes)
    ensures var e := ExpandCurrent(s, cur, open, closed, nodes);
      && Scored(s, e.1)
      && Distinct(e.0)
      && (forall q :: q in open ==> q in e.0)
      && (forall q :: q in e.0 ==> q in open || (q in s.nodes && q !in closed))
      && (forall q :: q in closed ==> e.1[q] == nodes[q])
      && (forall q :: q in e.0 ==>
            || (q in open && e.1[q] == nodes[q])
            || (InBounds(s, q) && Adjacent(cur, q) && Walkable(s, q) && e.1[q].parent == Some(cur)))
      && (forall n :: n in WalkableAdjacent(s, cur.x, cur.y) ==> n in e.0 || n in closed)
  {
    WalkableAdjacentExact(s, cur.x, cur.y);
    var nbs := WalkableAdjacent(s, cur.x, cur.y);
    assert forall q :: q in nbs ==> q in s.nodes;
    var e := Expand(cur, nbs, open, closed, nodes);
    assert e == ExpandCurrent(s, cur, open, closed, nodes);
    ScoredSentinel(s, nodes);
    ExpandKeepsScores(cur, nbs, open, closed, nodes);
    ExpandKeepsDistinct(cur, nbs, open, closed, nodes);
    ExpandChanges(cur, nbs, open, closed, nodes);
    ExpandedEntries(cur, nbs, open, closed, nodes);
  }

  /** Expanding a cell that is not the goal keeps the loop invariant. */
  lemma ExpandKeepsInv(s: State, fr: Frontier, cur: Pos, open: seq<Pos>)
    requires Selected(s, fr, cur, open) && cur != s.goal.value
    ensures var closed := fr.closed + [cur];
      var e := ExpandCurrent(s, cur, open, closed, fr.nodes);
      SearchInv(s, Frontier(e.0, closed, e.1), false)
  {
    var closed := fr.closed + [cur];
    ExpandCurrentFacts(s, cur, open, closed, fr.nodes);
    var e := ExpandCurrent(s, cur, open, closed, fr.nodes);
    ExpandKeepsLists(s, fr, cur, open, e.0, e.1);
    ExpandKeepsClosedLinks(s, fr, cur, open, e.1);
    ExpandKeepsOpenLinks(s, fr, cur, open, e.0, e.1);
    ExpandKeepsExpanded(s, fr, cur, open, e.0, e.1);
  }

  /** One pass keeps the loop invariant and closes exactly one more cell. */
  lemma StepKeepsInv(s: State, fr: Frontier)
    requires Ready(s)
    requires SearchInv(s, fr, false) && |fr.open| > 0
    ensures StepReady(s, fr)
    ensures var r := Step(s, fr); SearchInv(s, r.1, r.0) && |r.1.closed| == |fr.closed| + 1
  {
    SelectSetsUp(s, fr);
    var cur := Current(fr);
    var open := EraseFirst(fr.open, cur);
    if cur == s.goal.value {
      ReachedKeepsInv(s, fr, cur, open);
    } else {
      ExpandKeepsInv(s, fr, cur, open);
    }
  }

  /** The cells of a path, in order. */
  function Coords(p: Path): (r: seq<Pos>)
    ensures |r| == |p.nodes|
    ensures forall i :: 0 <= i < |r| ==> r[i] == PosOf(p.nodes[i])
  {
    seq(|p.nodes|, i requires 0 <= i < |p.nodes| => PosOf(p.nodes[i]))
  }

  /** A path from `from` to `to` that is a walk over the grid and visits no
      cell twice. */
  predicate PathFromTo(s: State, p: Path, from: Pos, to: Pos)
    requires MaskShaped(s.walkable, s.width, s.height)
  {
    && |p.nodes| > 0
    && PosOf(p.nodes[0]) == from
    && PosOf(p.nodes[|p.nodes| - 1]) == to
    && IsWalk(s, Coords(p))
    && DistinctCoords(p)
  }

  /** A walk that starts in a closed set with no open cells left never
      leaves it, because every closed cell has been expanded. */
  lemma {:induction false} WalkStaysClosed(s: State, fr: Frontier, w: seq<Pos>, i: nat)
    requires Ready(s)
    requires ListsInv(s, fr) && ExpandedInv(s, fr) && |fr.open| == 0
    requires IsWalk(s, w) && w[0] in fr.closed && i < |w|
    ensures w[i] in fr.closed
    decreases i
  {
    if i > 0 {
      WalkStaysClosed(s, fr, w, i - 1);
      assert Adjacent(w[i - 1], w[i]);
    }
  }

  /** When the open list runs dry before the goal is closed, no walk leads
      from the start to the goal. */
  lemma ExhaustedMeansUnreachable(s: State, fr: Frontier)
    requires Ready(s)
    requires SearchInv(s, fr, false) && |fr.open| == 0
    ensures !Reachable(s, s.start.value, s.goal.value)
  {
    if Reachable(s, s.start.value, s.goal.value) {
      var w :| IsWalk(s, w) && w[0] == s.start.value && w[|w| - 1] == s.goal.value;
      assert |fr.closed| > 0;
      WalkStaysClosed(s, fr, w, |w| - 1);
    }
  }

  /** A repeat-free list of cells is no longer than a set holding them all. */
  lemma {:induction false} DistinctWithin(xs: seq<Pos>, cells: set<Pos>)
    requires Distinct(xs)
    requires forall q :: q in xs ==> q in cells
    ensures |xs| <= |cells|
    decreases |xs|
  {
    if |xs| > 0 {
      var last := xs[|xs| - 1];
      var init := xs[..|xs| - 1];
      assert forall q :: q in init ==> q in cells - {last} by {
        forall q | q in init ensures q in cells - {last}
        {
          var j :| 0 <= j < |init| && init[j] == q;
          assert xs[j] == q;
        }
      }
      DistinctWithin(init, cells - {last});
    }
  }

  /** The cells of one row. */
  function Row(width: int, y: int): (r: set<Pos>)
    ensures forall q :: q in r <==> 0 <= q.x < width && q.y == y
  {
    set x: int | 0 <= x < width :: Pos(x, y)
  }

  lemma {:induction false} RowCount(width: nat, y: int)
    ensures |Row(width, y)| == width
    decreases width
  {
    if width > 0 {
      RowCount(width - 1, y);
      assert Row(width, y) == Row(width - 1, y) + {Pos(width - 1, y)};
    }
  }

  /** A width-by-height grid has width * height cells. */
  lemma {:induction false} CellsCount(width: nat, height: nat)
    ensures |Cells(width, height)| == width * height
    decreases height
  {
    if height > 0 {
      var lower := Cells(width, height - 1);
      var top := Row(width, height - 1);
      CellsCount(width, height - 1);
      RowCount(width, height - 1);
      assert Cells(width, height) == lower + top;
      assert lower !! top;
      assert |lower + top| == |lower| + |top|;
      ProductStep(width, height);
    }
  }

  lemma ProductStep(width: nat, height: nat)
    requires height > 0
    ensures width * (height - 1) + width == width * height
  {
  }

  /** Every node of `p` is a copy of the arena's node for its cell. */
  predicate Snapshots(p: Path, nodes: map<Pos, Node>)
  {
    forall i :: 0 <= i < |p.nodes| ==> PosOf(p.nodes[i]) in nodes && p.nodes[i] == nodes[PosOf(p.nodes[i])]
  }

  /** `p` lists the arena nodes of the closed cells at positions `ks`, in
      increasing order, each cell adjacent to the next. */
  ghost predicate Chain(nodes: map<Pos, Node>, closed: seq<Pos>, ks: seq<nat>, p: Path)
  {
    && |ks| == |p.nodes|
    && (forall i :: 0 <= i < |ks| ==>
          ks[i] < |closed| && closed[ks[i]] in nodes && p.nodes[i] == nodes[closed[ks[i]]])
    && (forall i, j :: 0 <= i < j < |ks| ==> ks[i] < ks[j])
    && (forall i :: 0 <= i < |ks| - 1 ==> Adjacent(closed[ks[i]], closed[ks[i + 1]]))
  }

  lemma ChainPrepend(nodes: map<Pos, Node>, closed: seq<Pos>, ks: seq<nat>, p: Path, k: nat)
    requires Chain(nodes, closed, ks, p)
    requires k < |closed| && closed[k] in nodes
    requires |ks| > 0 ==> k < ks[0] && Adjacent(closed[k], closed[ks[0]])
    ensures Chain(nodes, closed, [k] + ks, AddNodeAtFront(p, nodes[closed[k]]))
  {
    var ks', p' := [k] + ks, AddNodeAtFront(p, nodes[closed[k]]);
    forall i | 0 <= i < |ks'|
      ensures ks'[i] < |closed| && closed[ks'[i]] in nodes && p'.nodes[i] == nodes[closed[ks'[i]]]
    {
      if i > 0 {
        assert ks'[i] == ks[i - 1] && p'.nodes[i] == p.nodes[i - 1];
      }
    }
    forall i, j | 0 <= i < j < |ks'| ensures ks'[i] < ks'[j]
    {
      if i > 0 {
        assert ks'[i] == ks[i - 1];
      } else if j > 1 {
        assert ks[0] < ks[j - 1];
      }
    }
  }

  /** Every closed cell after the first links to an adjacent cell closed
      before it. */
  predicate LinksBack(nodes: map<Pos, Node>, closed: seq<Pos>)
  {
    forall k :: 1 <= k < |closed| ==>
      && closed[k] in nodes
      && nodes[closed[k]].parent.Some?
      && nodes[closed[k]].parent.value in closed[..k]
      && Adjacent(nodes[closed[k]].parent.value, closed[k])
  }

  /** `p` runs from `from` to `to` through closed cells, each adjacent to
      the next, with no cell twice, and its nodes are arena snapshots. */
  predicate Traced(p: Path, nodes: map<Pos, Node>, closed: seq<Pos>, from: Pos, to: Pos)
  {
    && |p.nodes| > 0
    && PosOf(p.nodes[0]) == from
    && PosOf(p.nodes[|p.nodes| - 1]) == to
    && (forall i :: 0 <= i < |p.nodes| - 1 ==> Adjacent(PosOf(p.nodes[i]), PosOf(p.nodes[i + 1])))
    && (forall i :: 0 <= i < |p.nodes| ==> PosOf(p.nodes[i]) in closed)
    && DistinctCoords(p)
    && Snapshots(p, nodes)
  }

  /** A chain from the first closed cell to the last is a traced path. */
  lemma ChainIsTraced(nodes: map<Pos, Node>, closed: seq<Pos>, ks: seq<nat>, p: Path)
    requires Chain(nodes, closed, ks, p) && Distinct(closed)
    requires forall q :: q in nodes ==> PosOf(nodes[q]) == q
    requires |ks| > 0 && ks[0] == 0 && ks[|ks| - 1] == |closed| - 1
    ensures Traced(p, nodes, closed, closed[0], closed[|closed| - 1])
  {
    assert forall i :: 0 <= i < |p.nodes| ==> PosOf(p.nodes[i]) == closed[ks[i]];
    forall i, j | 0 <= i < j < |p.nodes| ensures PosOf(p.nodes[i]) != PosOf(p.nodes[j])
    {
      assert ks[i] < ks[j];
    }
  }

  /** A traced path from the start to the goal through closed cells that
      are all walkable grid cells, the start apart, is a path of the grid. */
  lemma TracedIsPath(s: State, nodes: map<Pos, Node>, closed: seq<Pos>, p: Path, from: Pos, to: Pos)
    requires MaskShaped(s.walkable, s.width, s.height)
    requires |closed| > 0 && closed[0] == from && Traced(p, nodes, closed, from, to)
    requires forall k :: 1 <= k < |closed| ==> InBounds(s, closed[k]) && Walkable(s, closed[k])
    ensures PathFromTo(s, p, from, to)
  {
    var w := Coords(p);
    forall i | 0 < i < |w| ensures InBounds(s, w[i]) && Walkable(s, w[i])
    {
      var k :| 0 <= k < |closed| && closed[k] == w[i];
      assert PosOf(p.nodes[0]) != PosOf(p.nodes[i]);
    }
    assert IsWalk(s, w);
  }

  /** The walk back along parent links from the goal (`calculatePath`'s
      second loop): each visited node goes to the front of the path, the
      walk stops at a node without a parent or on reaching the start, and
      the start node goes to the front last, so every node after the first
      names the one before it as parent. `closed` is the closed list of
      the search that set the links; only the proof reads it. */
  method Backtrace(nodes: map<Pos, Node>, start: Pos, goal: Pos, closed: seq<Pos>) returns (p: Path)
    requires start != goal && start in nodes
    requires forall q :: q in nodes ==> PosOf(nodes[q]) == q
    requires Distinct(closed) && LinksBack(nodes, closed)
    requires |closed| > 0 && closed[0] == start && closed[|closed| - 1] == goal
    ensures Traced(p, nodes, closed, start, goal)
    ensures ParentLinked(p)
  {
    p := EmptyPath();
    var cur := goal;
    ghost var k := |closed| - 1;
    ghost var ks: seq<nat> := [];
    var stop := false;
    while !stop
      invariant 0 <= k < |closed| && cur == closed[k]
      invariant Chain(nodes, closed, ks, p)
      invariant |ks| == 0 ==> k == |closed| - 1 && !stop
      invariant |ks| > 0 ==> k < ks[0] && Adjacent(cur, closed[ks[0]]) && ks[|ks| - 1] == |closed| - 1
      invariant stop ==> k == 0
      invariant !stop ==> k >= 1
      invariant LinkedFrom(p, cur)
      decreases k + (if stop then 0 else 1)
    {
      ChainPrepend(nodes, closed, ks, p, k);
      LinkedPrepend(p, nodes[cur], nodes[cur].parent);
      p := AddNodeAtFront(p, nodes[cur]);
      ks := [k] + ks;
      match nodes[cur].parent
      case None =>
        assert false;
      case Some(q) =>
        ghost var j :| 0 <= j < k && closed[j] == q;
        cur := q;
        k := j;
        stop := cur == start;
    }
    ChainPrepend(nodes, closed, ks, p, 0);
    LinkedPrepend(p, nodes[start], None);
    p := AddNodeAtFront(p, nodes[start]);
    ks := [0] + ks;
    ChainIsTraced(nodes, closed, ks, p);
  }

  /** The search's links, seen without the grid. */
  lemma SearchLinksBack(s: State, fr: Frontier)
    requires Ready(s) && SearchInv(s, fr, true)
    ensures LinksBack(fr.nodes, fr.closed) && Distinct(fr.closed)
    ensures |fr.closed| > 0 && fr.closed[0] == s.start.value && fr.closed[|fr.closed| - 1] == s.goal.value
    ensures s.start.value in fr.nodes
    ensures forall q :: q in fr.nodes ==> PosOf(fr.nodes[q]) == q
    ensures forall k :: 1 <= k < |fr.closed| ==> InBounds(s, fr.closed[k]) && Walkable(s, fr.closed[k])
  {
    forall q | q in fr.nodes ensures PosOf(fr.nodes[q]) == q
    {
      assert fr.nodes[q] == s.nodes[q].(parent := fr.nodes[q].parent);
    }
    forall k | 1 <= k < |fr.closed|
      ensures InBounds(s, fr.closed[k]) && Walkable(s, fr.closed[k])
    {
      assert LinkedTo(s, fr.nodes, fr.closed[k], fr.closed[..k]);
    }
  }

  /** A path between two cells is a witness that one reaches the other. */
  lemma PathIsReachable(s: State, p: Path, from: Pos, to: Pos)
    requires MaskShaped(s.walkable, s.width, s.height)
    requires PathFromTo(s, p, from, to)
    ensures Reachable(s, from, to)
  {
    var w := Coords(p);
    assert IsWalk(s, w) && w[0] == from && w[|w| - 1] == to;
  }

  lemma ReadyWhenInitialised(s: State)
    requires Valid(s) && s.wasInit
    ensures Ready(s)
  {
  }

  /** `calculatePath`'s first loop: starting from the start cell alone on
      the open list, passes run until the goal is closed or the open list is
      empty. It returns whether the goal was reached, the final lists and
      arena, and the number of passes, at most one per grid cell. */
  method OpenClosedLoop(s: State) returns (reached: bool, fr: Frontier, passes: nat)
    requires Ready(s) && s.start != s.goal
    ensures SearchInv(s, fr, reached)
    ensures reached || |fr.open| == 0
    ensures passes == |fr.closed| <= s.width * s.height
  {
    fr := Frontier([s.start.value], [], s.nodes);
    reached := false;
    while !reached && |fr.open| > 0
      invariant SearchInv(s, fr, reached)
      invariant |fr.closed| <= |s.nodes.Keys|
      decreases |s.nodes.Keys| - |fr.closed|
    {
      StepKeepsInv(s, fr);
      var next := Step(s, fr);
      reached, fr := next.0, next.1;
      DistinctWithin(fr.closed, s.nodes.Keys);
    }
    CellsCount(s.width, s.height);
    passes := |fr.closed|;
  }

  /** `calculatePath`. Before a successful `init`, or after `reset`, it
      fails with the "not initialized" error and changes nothing. Otherwise
      it fails with "no path" exactly when the goal cannot be reached from
      the start by a walk, and else returns a repeat-free walk from the start
      to the goal whose nodes are snapshots of the arena, each node after the
      first linked to the one before it. Only parent links
      change: every G, H and F stays as it was. The main loop runs at most
      width * height times. */
  method CalculatePath(s: State) returns (r: Outcome, s': State, ghost iterations: nat)
    requires Valid(s)
    requires s.wasInit ==> s.start != s.goal
    ensures Valid(s')
    ensures !s.wasInit ==> r == NotInitialized && s' == s
    ensures s.wasInit ==> r.Found? || r.NoPath?
    ensures s.wasInit ==> (r.NoPath? <==> !Reachable(s, s.start.value, s.goal.value))
    ensures r.Found? ==> s.wasInit && PathFromTo(s, r.path, s.start.value, s.goal.value)
    ensures r.Found? ==> Snapshots(r.path, s'.nodes) && ParentLinked(r.path)
    ensures s' == s.(nodes := s'.nodes) && Scored(s, s'.nodes)
    ensures iterations <= s.width * s.height
  {
    if !s.wasInit {
      return NotInitialized, s, 0;
    }
    ReadyWhenInitialised(s);
    var reached, fr, closedCount := OpenClosedLoop(s);
    iterations := closedCount;
    s' := s.(nodes := fr.nodes);
    RelinkedIsValid(s, fr.nodes);
    if !reached {
      ExhaustedMeansUnreachable(s, fr);
      r := NoPath;
    } else {
      SearchLinksBack(s, fr);
      var path := Backtrace(fr.nodes, s.start.value, s.goal.value, fr.closed);
      TracedIsPath(s, fr.nodes, fr.closed, path, s.start.value, s.goal.value);
      PathIsReachable(s, path, s.start.value, s.goal.value);
      r := Found(path);
    }
  }
}

=== FILE: wrappers.dfy ===
/** The optional value used where the source holds a pointer that may be null. */
module Wrappers {

  datatype Option<+T> = None | Some(value: T)
}
